=== FILE: README.md ===
# EasyImage thumbnail core in Dafny

A model of the logic inside the Yii EasyImage extension. The extension turns a source image
and an options array into a cached thumbnail and answers the thumbnail's URL. The model has
two parts:

- **Where a thumbnail lives (`EEasyImageFile`).** The cache key is the MD5 digest of the
  image's relative path followed by the serialised options. Those options get an extra
  `filemtime` entry holding the source's absolute path. The output extension is the `type`
  option, or else the source's own extension. The cache directory has two shard levels,
  named by the key's last and second-to-last characters. The relative and absolute paths and
  URLs are joined with `rtrim(..., '/') . '/'`. Each getter stores what it computes and
  reuses it while PHP's `empty()` says the field is set.
- **What the component does with an options array (`EEasyImage`).**
  - `generateThumbnail` walks the options in insertion order. It lower-cases each name,
    validates the value in its array or bare-scalar form, fills in defaults, and emits an
    image edit or changes the save quality. The first invalid entry throws.
  - `generateThumbnailUrl` serves a fresh cached file (younger than the timeout, strictly)
    by its absolute URL. Otherwise it generates the file. Any exception is logged and the
    answer becomes `null`.
  - `getThumbnailUrl` answers the relative URL and never generates.
  - `getFilePath` finds the source image, and `init` applies the deprecated `cachePath`
    setting.

The modules follow the program:

| module | file | contents |
|---|---|---|
| `Wrappers` | `wrappers.dfy` | `Option` and `Result` |
| `Php` | `php.dfy` | PHP values and ordered string-keyed arrays, plus the library functions the core uses: `isset`, array union `+`, `empty`, string conversion, `rtrim`, `strtolower`, `basename`, `pathinfo` |
| `Host` | `host.dfy` | the environment: web root, base URL, and MD5 and `serialize` as function-valued parameters (MD5 is only known to return 32 lower-case hex characters), plus the filesystem and clock |
| `CacheLayout` | `cache_layout.dfy` | the getters' values as pure functions of the constructor arguments |
| `EasyImageFile` | `easy_image_file.dfy` | the memoising object, with the invariant `Consistent`: every memo field that is set holds the value `CacheLayout` derives |
| `Actions` | `actions.dfy` | the option switch and the walk over the options |
| `EasyImage` | `easy_image.dfy` | the component: configuration, `init`, `getFilePath`, `generateThumbnail`, `generateThumbnailUrl`, `getThumbnailUrl` |

The model follows PHP 5.4 to 7.3. In that range, `isset($s['width'])` on a string is false.
`$key{31}` on `null` is `null`, which prints as the empty string.

Three points where the behaviour may surprise a reader. The model follows the code in each:
- The `filemtime` entry mixed into the cache key holds the source's absolute path, not its
  modification time. Rewriting a source image does not change its key
  (`EasyImageFile.KeyIgnoresModificationTime`).
- Options are serialised and applied in the caller's insertion order, so reordering them
  changes both the key and the order of the edits.
- The message for a `crop` without a size is labelled `Action: Flip;`. The model keeps it
  verbatim in `Actions.ErrorMessage`.

## Model

| member | source | states |
|---|---|---|
| Php.PlusEntry | EEasyImageFile.php:106 | The array union `$a + array(k => v)` keeps `a` as a prefix and adds `k` to the keys. A value already stored under `k` wins over `v`, and no other key's lookup changes. |
| Php.RTrim | EEasyImageFile.php:50 | `rtrim($s, c)` is a prefix of `s` that does not end in `c`, and everything it drops is `c`. |
| Php.RTrimUnique | EEasyImageFile.php:50 | Any prefix with those three properties is the result, so the properties define `rtrim` completely. |
| Php.RTrimIdempotent | EEasyImageFile.php:50 | Trimming twice is trimming once. |
| Php.Basename | EEasyImageFile.php:117 | The basename is the last component of the path once trailing slashes are dropped. It has no `/`, ends the trimmed path, and is either the whole trimmed path or preceded by a `/`. |
| Php.PathinfoExtension | EEasyImageFile.php:117 | The extension has no `.` or `/`. When the basename holds a `.`, the basename ends with `.` and the extension, so the extension is the text after the basename's last `.`. A basename without `.` gives the empty extension. |
| Php.PathinfoExtensionUnique | EEasyImageFile.php:117 | Any `.`-free text that follows a `.` at the end of the basename is the extension, so the contract above determines it. |
| Php.Field | EEasyImage.php:164-297 | `isset($v[k])` holds exactly when `v` is an array holding `k` with a non-null value, and then the field is that value. On a bare value it never holds. |
| Php.IssetKey | EEasyImage.php:164-297 | `isset($a[k])` on an array: present exactly when `k` is stored with a non-null value, which is then the answer. |
| Php.EmptyString | EEasyImage.php:110 | `empty()` of a string holds for `""` and `"0"` only: never for two or more characters, and for one character exactly when it is `0`. So `init` ignores a `cachePath` of `"0"`, and each getter reuses a stored string unless it is one of those two. |
| Php.IsEmpty | EEasyImageFile.php:112 | `empty()` holds for exactly six values: null, false, 0, `""`, `"0"` and the empty array. So `getExtension` recomputes a stored `type` of `0` or `"0"`, and `getCacheKey` computes nothing for empty options. |
| Php.ToPhpString | EEasyImageFile.php:127 | String conversion by `.` and `sprintf('%s')` keeps a string and turns an array into `"Array"`, as PHP does. For null, booleans and integers the string is empty in the sense of `empty()` exactly when the value is: null and false give `""`, and 0 gives `"0"`. |
| Php.ToLower | EEasyImage.php:158 | `strtolower` keeps the length and lower-cases each ASCII upper-case letter, leaving every other character alone. |
| Php.ToLowerIdempotent | EEasyImage.php:158 | Lower-casing twice is lower-casing once. |
| CacheLayout.KeyedOptions | EEasyImageFile.php:106 | The serialised array is the options with `filemtime => <absolute source path>` appended, unless the caller already gave a `filemtime`; then the caller's value stays. |
| CacheLayout.CacheKey | EEasyImageFile.php:103-107 | A key exists exactly when the options are non-empty. It is the MD5 digest of the relative path followed by the serialised keyed options. |
| CacheLayout.Extension | EEasyImageFile.php:117 | The `type` option when it is set and not null; otherwise the source path's `pathinfo` extension. |
| CacheLayout.Locate | EEasyImageFile.php:60-175 | Both the relative URL and the absolute file path end in `/` followed by the file name. |
| CacheLayout.KeyText | EEasyImageFile.php:127 | The key is rendered as PHP converts the key value: a digest gives its 32 lower-case hex characters, and a null key gives `""`, so the file name then starts with the `.`. |
| CacheLayout.Shard | EEasyImageFile.php:164 | `$key{i}` rendered by `sprintf('%s')` is the one-character string holding the key's hex character `i`, and `""` for a null key, since indexing null gives null in PHP 5.4 to 7.3. |
| CacheLayout.KeyedDirectories | EEasyImageFile.php:163-164 | With a key, the relative path is the base, then `/` and key character 31, then `/` and key character 30. `rtrim` leaves that directory and its absolute form unchanged. |
| CacheLayout.KeyedFile | EEasyImageFile.php:67-77 | With a key, the absolute file path is the trimmed web root, `/`, and the relative URL. |
| CacheLayout.KeyedLayout | EEasyImageFile.php:120-175 | With options, the file is `key.ext`, two hex-named shard levels below the base. Its file path and absolute URL are the trimmed web root and the trimmed base URL, each followed by `/` and the same relative URL. |
| CacheLayout.LocateWithoutOptions | EEasyImageFile.php:104-117 | With no options, the location has no key and uses the source's own extension. |
| CacheLayout.UnkeyedLayout | EEasyImageFile.php:120-174 | With no options, the relative path is the base followed by `//`, and the file name is `.` followed by the source's extension. |
| CacheLayout.UnkeyedAbsolute | EEasyImageFile.php:60-88 | With no options, the file path is the trimmed web root, `/` and the relative URL. When the base trims to nothing, the `/` is missing, because the relative URL already starts with one. |
| CacheLayout.UrlAndFileAgree | EEasyImageFile.php:67-87 | Except in that case, the served URL and the written file name the same relative location. |
| CacheLayout.EmptyOptionsShareCacheFile | EEasyImageFile.php:104-107 | As written, all sources with equal extensions and no options share one cache file, relative URL and absolute URL. |
| CacheLayout.IntendedCacheKey | EEasyImageFile.php:106 | The corrected key is always a digest, and it equals the source's key whenever options are given. |
| CacheLayout.IntendedLocate | EEasyImageFile.php:120-175 | The corrected location equals the source's whenever options are given. |
| CacheLayout.IntendedUrlJoin | EEasyImageFile.php:87 | The corrected join: the trimmed base URL, then exactly one `/`, then the relative URL without its leading slashes. For a relative URL with no leading `/` it is the getter's own join. |
| CacheLayout.IntendedFilesCollideOnlyOnDigestCollision | EEasyImageFile.php:127-164 | With the corrected key, two sources with the same output extension share a file only if their key digests are equal. |
| EasyImageFile.New | EEasyImageFile.php:48-58 | Construction succeeds exactly when a file exists at the web root followed by the image path, with no separator. Otherwise it fails with `Image does not exist at '<path>'`. It stores the base directory without trailing slashes and leaves the object consistent. |
| EasyImageFile.GetOriginalAbsolutePath | EEasyImageFile.php:141-149 | Answers the web root followed by the relative path, and keeps the object consistent. |
| EasyImageFile.GetCacheKey | EEasyImageFile.php:96-108 | Answers the derived key, or null without options, and stores a key only when there is one. |
| EasyImageFile.GetExtension | EEasyImageFile.php:110-118 | Answers the derived extension and stores it. |
| EasyImageFile.GetFilename | EEasyImageFile.php:120-128 | Answers the derived file name, which is the key, `.` and the extension. |
| EasyImageFile.GetRelativePath | EEasyImageFile.php:156-165 | Answers the derived sharded directory. |
| EasyImageFile.GetRelativeUrl | EEasyImageFile.php:167-175 | Answers the derived relative URL. |
| EasyImageFile.GetAbsolutePath | EEasyImageFile.php:70-78 | Answers the derived absolute directory. |
| EasyImageFile.GetAbsoluteFilePath | EEasyImageFile.php:60-68 | Answers the derived absolute file path. |
| EasyImageFile.GetAbsoluteUrl | EEasyImageFile.php:80-88 | Answers the derived absolute URL. |
| EasyImageFile.DerivedNotEmpty | EEasyImageFile.php:62-174 | Every derived path, URL and file name is non-empty and not `"0"`, so PHP's `empty()` never discards a stored one. |
| EasyImageFile.PathGettersIdempotent | EEasyImageFile.php:60-88 | A second call of the absolute getters answers the first call's value and leaves the object unchanged. |
| EasyImageFile.RelativeGettersIdempotent | EEasyImageFile.php:120-175 | The same holds for the file name, relative path and relative URL getters. |
| EasyImageFile.KeyGettersIdempotent | EEasyImageFile.php:96-149 | A second call of the key, extension and original-path getters answers the same value, even where `empty()` makes PHP recompute it. |
| EasyImageFile.KeyIgnoresModificationTime | EEasyImageFile.php:106 | Two filesystems that both hold the source give the same object, whatever the modification times. |
| EasyImageFile.MetadataAsGiven | EEasyImageFile.php:136-139 | `getMetadata` answers the options exactly as given to the constructor. |
| Actions.Classify | EEasyImage.php:158-309 | A lower-cased name selects a case exactly when it is in the vocabulary, and that case's label is the name. |
| Actions.ErrorMessage | EEasyImage.php:166-309 | Every exception message starts with `Action: `. The message of an unknown name holds that name as given, right after the label. |
| Actions.UnknownActionMessage | EEasyImage.php:309 | An unknown name is reported as `Action: <key>; Action not found.`. |
| Actions.UnknownKeyInMessage | EEasyImage.php:309 | Two different unknown names never log the same message. |
| Actions.Apply | EEasyImage.php:160-305 | No case reports an unknown action. Only `quality` with a non-null value sets the quality, to that value. Only `type` does nothing. The edit each case emits is stated by the case lemmas below. |
| Actions.Interpret | EEasyImage.php:156-311 | A key is rejected as unknown exactly when its lower-case form is outside the vocabulary, and the error carries the key as given. |
| Actions.Walk | EEasyImage.php:156-312 | The walk over interpreted entries completes exactly when every entry succeeds. Otherwise it reports the error of an entry whose predecessors all succeed. |
| Actions.Dispatch | EEasyImage.php:156-312 | The options loop completes exactly when every entry is accepted. Otherwise the reported error comes from a rejected entry. |
| Actions.WalkAppend | EEasyImage.php:156-312 | Walking two arrays in a row, when the first is all accepted, is walking the first, then the second from the first's final quality. |
| Actions.WalkInOrder | EEasyImage.php:156-312 | A walk over accepted entries gives their edits in order and the last quality set. Both come from an independent definition built from the end of the array. |
| Actions.DispatchInInsertionOrder | EEasyImage.php:156-314 | When every option is accepted, the edits come in insertion order. The quality handed to `save` is the last `quality` given, or the component's quality when none is given. |
| Actions.DispatchStopsAtFirstFailure | EEasyImage.php:156-312 | The first rejected entry's error is reported. The edits before it have been applied, and the component holds the last quality set before it. |
| Actions.UnknownKeyAborts | EEasyImage.php:307-309 | A name outside the vocabulary, reached after accepted entries, aborts the walk with `UnknownAction` carrying that key. |
| Actions.NamesMatchCaseInsensitively | EEasyImage.php:158 | A key whose lower-case form is in the vocabulary behaves exactly as that lower-case form. |
| Actions.KeySelectsCase | EEasyImage.php:158 | Any key whose lower-case form is a case label runs that case. |
| Actions.BareScalarIsPrimaryField | EEasyImage.php:160-305 | A bare non-null value for `background`, `flip`, `rotate` or `sharpen` acts as the array holding just the required field. For `watermark`, any bare value acts as the array holding just the `watermark` source. |
| Actions.RequiredFields | EEasyImage.php:160-281 | The array forms of `background`, `flip`, `rotate` and `sharpen` are accepted exactly when `color`, `direction`, `degrees` or `amount` (respectively) is set. `crop` needs both `width` and `height`, and `quality` needs a non-null value. |
| Actions.CropNeedsArray | EEasyImage.php:180-183 | A bare `crop` value is always rejected. |
| Actions.RejectionErrors | EEasyImage.php:164-271 | Exactly `background`, `crop`, `flip`, `quality`, `rotate` and `sharpen` have a rejection error, and a rejection reports that case's own error. Every other case accepts every value. |
| Actions.NeverRejected | EEasyImage.php:225-305 | The switch itself never rejects `reflection`, `resize` or `watermark`: each emits an edit for every value. `type` accepts every value and emits nothing. Exceptions the library's edit calls may raise are outside the model (see Left out). |
| Actions.BackgroundCase | EEasyImage.php:160-176 | For every value: a bare value is the color with opacity 100. An array without a set `color` is rejected with the background error. An array with one emits `Background(color, opacity)`, where opacity is `$value['opacity']` when set and 100 otherwise. |
| Actions.CropCase | EEasyImage.php:178-194 | For every value: without a set `width` and `height` the crop error is raised. Otherwise `Crop(width, height, offset_x, offset_y)` is emitted, with each offset taken when set and null otherwise. |
| Actions.FlipCase | EEasyImage.php:196-212 | For every value: a bare value is the direction. An array without a set `direction` is rejected, and an array with one emits `Flip(direction)`. |
| Actions.RotateCase | EEasyImage.php:247-263 | For every value: a bare value is the angle. An array without a set `degrees` is rejected, and an array with one emits `Rotate(degrees)`. |
| Actions.SharpenCase | EEasyImage.php:265-281 | For every value: a bare value is the amount. An array without a set `amount` is rejected, and an array with one emits `Sharpen(amount)`. |
| Actions.ReflectionCase | EEasyImage.php:225-235 | For every value, `Reflection(height, opacity, fade_in)` is emitted, each taken when set and otherwise null, 100 and false. |
| Actions.ResizeCase | EEasyImage.php:237-245 | For every value, `Resize(width, height, master)` is emitted, each taken when set and null otherwise. |
| Actions.WatermarkCase | EEasyImage.php:287-305 | For every value: a bare value is the source with null offsets and opacity 100. From an array, `watermark`, `offset_x`, `offset_y` and `opacity` are each taken when set and are otherwise null, null, null and 100. |
| Actions.QualityAndTypeCases | EEasyImage.php:214-223 | `quality` rejects null with its own error and otherwise sets the quality to the value. `type` does nothing. |
| Actions.QualityOption | EEasyImage.php:214-223 | A single non-null `quality` sets the quality and emits no edit. |
| EasyImage.Init | EEasyImage.php:105-113 | A non-empty `cachePath` (not `""` and not `"0"`) replaces `relativeCachePath`. Nothing else changes. |
| EasyImage.InitIdempotent | EEasyImage.php:105-113 | Running `init` twice is running it once. |
| EasyImage.InitDefaults | EEasyImage.php:38-48 | Unconfigured, the cache lives under `/assets/easyimage/`, and `init` keeps it there. |
| EasyImage.FilePath | EEasyImage.php:394-403 | The path is the web root, `/` and the image when that is a file, and otherwise the image path unchanged. Either way it ends with the image path. |
| EasyImage.GenerateThumbnail | EEasyImage.php:152-315 | With library edit calls taken not to throw, `save` is reached exactly when the source loads and every option is accepted. It receives the loaded path, the cached file's absolute path, the edits in insertion order and the last quality. The answer is `save`'s boolean. Otherwise the error is the load's message, the rejected option's message, or the message `save` threw. Once the source loads, the component keeps the quality reached, even when an option is rejected. |
| EasyImage.IsFresh | EEasyImage.php:348 | A cached file is fresh when it exists and `now - filemtime` is strictly below the timeout. |
| EasyImage.StalenessBoundary | EEasyImage.php:348 | A cached file is fresh exactly when its modification time is after `now - timeout`. Age `timeout` is stale, and age `timeout - 1` is fresh. |
| EasyImage.GenerateThumbnailUrl | EEasyImage.php:341-383 | A missing source gives null with the constructor's message logged. A fresh cached file gives its absolute URL with no save. Any URL answered is the absolute URL. Null comes exactly when something is logged. |
| EasyImage.MissGeneratesOnce | EEasyImage.php:348-380 | On a miss, with library edit calls taken not to throw, `save` is reached exactly when the source loads and every option is accepted, with the insertion-order edits and last quality. The URL is answered exactly when `save` does not throw. What is logged is the load's message, the rejected option's message, or the message `save` threw. |
| EasyImage.RejectedOptionIsLogged | EEasyImage.php:307-380 | On a miss, the first rejected option's message is logged and null answered, with no save. For a name outside the vocabulary the log reads `Action: <key>; Action not found.` with the key as given. |
| EasyImage.InvalidOptionsNeverSave | EEasyImage.php:156-315 | With a rejected option, `save` is never reached. The answer is null unless a fresh cached file exists. |
| EasyImage.FailedSaveStillYieldsUrl | EEasyImage.php:359-375 | A `save` that answers false still yields the absolute URL. |
| EasyImage.GetThumbnailUrl | EEasyImage.php:429-433 | Succeeds exactly when the source exists and answers the relative URL. Otherwise it fails with the constructor's message. |
| EasyImage.GeneratedUrlExtendsRelativeUrl | EEasyImage.php:341-433 | When `generateThumbnailUrl` answers, `getThumbnailUrl` answers too. The first URL is the trimmed base URL, `/`, and the second. |
| EasyImage.UnkeyedUrl | EEasyImage.php:345 | With a cache path that is a directory followed by one `/`, a call with no options gets the relative URL made of the cache path, `.` and the source's extension, whatever the source's name. |
| EasyImage.UnconfiguredUnkeyedUrl | EEasyImage.php:38 | Unconfigured, that relative URL is `/assets/easyimage/.` followed by the extension, for example `/assets/easyimage/.jpg`. |
| EasyImage.RootAppUrlIsProtocolRelative | EEasyImageFile.php:87 | As written, for an application whose base URL trims to nothing and a cache path starting with `/`, the absolute URL is `/` followed by the relative URL, so it starts with `//`. |
| EasyImage.UnconfiguredRootAppUrl | EEasyImage.php:38 | With the default cache path and an empty base URL, every URL `generateThumbnailUrl` hands out starts with `//`. |
| EasyImage.IntendedRootAppUrl | EEasyImageFile.php:87 | With the corrected join, that application gets a root-relative URL: `/` followed by a character other than `/`. |
| EasyImage.EmptyOptionsServeAnotherImage | EEasyImage.php:345-351 | As written, with no options, a second image with the same extension is served the first image's fresh thumbnail. |
| EasyImage.QualityLeaksIntoNextCall | EEasyImage.php:214-223 | As written, the component keeps the quality a `generateThumbnailUrl` call reached. A later call in the same PHP request without `quality` saves with it. |
| EasyImage.QualityLeakWitness | EEasyImage.php:221 | A call with `quality` 50 leaves the component at quality 50. |
| EasyImage.GenerateThumbnailUrlPerCall | EEasyImage.php:341-383 | The corrected entry point answers the same URL and performs the same save, but leaves the component as configured. |
| EasyImage.PerCallQualityIsIndependent | EEasyImage.php:314 | With the corrected entry point, a call's save quality depends only on its own options and the configured quality. |

## Left out

- The pixel work of the Kohana `Image` library (`background`, `crop`, `flip`, `reflection`,
  `resize`, `rotate`, `sharpen`, `watermark`, `render`, `save`, and `__toString`,
  EEasyImage.php:135-145 and 435-515). It is a foreign library, so edits are only emitted as
  `Op` values. Loading and saving are parameters of type `Engine`.
- Exceptions raised inside the library's edit calls. These include `watermark`'s loading of a
  string source through `Image::factory` and `getInstance`'s `Must have a valid image to
  manipulate.` (EEasyImage.php:89-97 and 502-515). The model takes every edit call not to
  throw, so the source value is passed on as given. In the source such an exception stops
  the loop before `save`, and `generateThumbnailUrl` logs it and answers null.
- EasyImage.GenerateThumbnail: `save` is reached exactly when the source loads and every
  option is accepted only under that assumption; a throwing edit call would also prevent it.
- EasyImage.MissGeneratesOnce: the same assumption applies to its "exactly when".
- Actions.NeverRejected: says only that the switch itself never throws for these cases; the
  library's `watermark` may still throw.
- `is_dir` and `mkdir` of the cache directory (EEasyImage.php:354-357). The directory is
  not modelled. It reaches the answer only through what `Engine.save` returns, which the
  model leaves unconstrained. A failed `mkdir` shows up as a `save` that throws and a null
  answer. The model does not cover a warning from `mkdir` itself that an error handler turns
  into the end of the request.
- Php.ToPhpString: an array is converted to `"Array"` and the model carries on. PHP also raises
  an `Array to string conversion` notice there, which happens when the `type` option holds an
  array (EEasyImageFile.php:127). Yii 1.1's default error handler ends the request on that
  notice, while the model goes on to the file name `<key>.Array`. The model does not cover
  that notice.
- Php.ToLower: `strtolower` is modelled in the C locale, lowering ASCII `A` to `Z` only. Before
  PHP 8.0 the locale came from the environment at startup. Under a locale such as Turkish,
  PHP may not map `RESIZE` to `resize` and then rejects the key as unknown, while the model
  accepts it. `Php.Basename` is likewise modelled byte-wise in the C locale.
- The component constructor (the `SYSPATH` define, eager loading), `getInstance`, the
  `instance`, `driver` and `fileMode` fields, `ini_set`, and Retina script registration.
  These are framework glue.
- `generateThumbnailTag`, `getThumbnailTag`, and the deprecated `thumbOf` and `thumbSrcOf`.
  These are HTML helpers and aliases.
- EEasyImageAutoloader.php (class loading) and EasyImage.php (an empty subclass) are not part
  of this model.
- The internals of MD5 and `serialize`. They are function-valued parameters, and the
  digest's only known property is that it is 32 lower-case hex characters.
- Integer array keys, floats and objects in options, because PHP values are modelled without
  them. So is PHP 8 behaviour (`$key{31}` no longer parses, and `isset` on string offsets
  differs).
- Concurrent regeneration of one thumbnail, since the source has no logic of its own for it.
- EasyImage.GenerateThumbnail: the object passed in is not handed back with its memo fields
  filled. This is harmless because every getter of a consistent object answers the derived
  value.
- Actions.Dispatch: every entry is interpreted up front and then walked, instead of being
  interpreted inside the loop. Interpretation is pure, so the outcome is the same.

## Findings

| source | as written | input that shows it | evidently intended | confidence | as-written member | corrected member |
|---|---|---|---|---|---|---|
| EEasyImageFile.php:104-107 | With no options no key is computed. `$key{31}` and `$key{30}` are null, so the directory is `<base>//` and, after `rtrim`, the file is `<webroot>/<base>/.<ext>` with the relative URL `<base>/.<ext>`, for every source. | `generateThumbnailUrl('/a.jpg')`, then `generateThumbnailUrl('/b.jpg')` within the timeout (the web root has no trailing `/`): both have the relative URL `/assets/easyimage/.jpg` (`EasyImage.UnconfiguredUnkeyedUrl`), so the second is served `/a.jpg`'s thumbnail | the key is the digest of the path and the options even when there are no options | medium, not executed | CacheLayout.EmptyOptionsShareCacheFile | CacheLayout.IntendedFilesCollideOnlyOnDigestCollision |
| EEasyImage.php:221 | `$this->quality = $value` writes the option into the application component, which outlives the call's thumbnail: a later call in the same PHP request saves with it | `generateThumbnailUrl('/a.jpg', ['quality' => 50])`, then `generateThumbnailUrl('/b.jpg', ['resize' => ['width' => 100]])`: in the same PHP request: the second save uses quality 50 | the `quality` option applies only to its own thumbnail | medium, not executed | EasyImage.QualityLeaksIntoNextCall | EasyImage.PerCallQualityIsIndependent |
| EEasyImageFile.php:87 | `rtrim(baseUrl, '/') . '/' . relativeUrl` adds a `/` even though the relative URL already starts with one, because the cache path does | an application at the document root has the base URL `""`. With the default cache path `/assets/easyimage/`, `generateThumbnailUrl('/a.jpg', ['resize' => ['width' => 100]])` hands out `//assets/easyimage/<k31>/<k30>/<key>.jpg` (`EasyImage.UnconfiguredRootAppUrl`), a protocol-relative URL that names a host called `assets` | the base URL and the relative URL are joined by a single `/`, giving `/assets/easyimage/...` | medium, not executed | EasyImage.RootAppUrlIsProtocolRelative | EasyImage.IntendedRootAppUrl |

=== FILE: actions.dfy ===
/**
 * The option switch of `EEasyImage::generateThumbnail`: each entry of the options array is
 * matched by its lower-cased name, validated in its structured (array) or bare-scalar form,
 * completed with defaults, and turned into an image edit, a change of the save quality, or
 * nothing. The first invalid entry raises an exception and the walk stops there.
 */
module Actions {
  import opened Wrappers
  import opened Php

  /** One call on the image library, with the arguments the switch passes to it. */
  datatype Op =
    | Background(color: Value, opacity: Value)
    | Crop(width: Value, height: Value, offsetX: Value, offsetY: Value)
    | Flip(direction: Value)
    | Reflection(height: Value, opacity: Value, fadeIn: Value)
    | Resize(width: Value, height: Value, master: Value)
    | Rotate(degrees: Value)
    | Sharpen(amount: Value)
    | Watermark(source: Value, offsetX: Value, offsetY: Value, opacity: Value)

  /** What one accepted options entry does. */
  datatype Step = Edit(op: Op) | SetQuality(quality: Value) | NoEdit

  /** The reasons the switch throws. */
  datatype ActionError =
    | NoColor
    | NoCropSize
    | NoDirection
    | NoQuality
    | NoDegrees
    | NoAmount
    | UnknownAction(key: string)

  /**
   * The exception messages, verbatim. The crop message carries the "Flip" label of the case
   * above it in the source.
   */
  function ErrorMessage(e: ActionError): (r: string)
    ensures "Action: " <= r
    ensures e.UnknownAction? ==> |r| == |e.key| + 27 && r[8..8 + |e.key|] == e.key
  {
    var r := "Action: " + (if e.UnknownAction? then e.key + "; Action not found." else Detail(e));
    assert r[..8] == "Action: ";
    r
  }

  /** What follows "Action: " in the message of each validation error: the case label, then the complaint. */
  function Detail(e: ActionError): string
    requires !e.UnknownAction?
  {
    match e
    case NoColor => "Background; A color is required when attempting to alter the background."
    case NoCropSize => "Flip; Both length and width are required when attempting to crop an image."
    case NoDirection => "Flip; You must specify a direction you would like this image to be flipped."
    case NoQuality => "Quality; Must have a value."
    case NoDegrees => "Rotate; You must specify the number of degrees the image should rotate."
    case NoAmount => "Sharpen; You must specify an amount you would like this image to be sharpened."
  }

  /** The message logged for a name outside the vocabulary. */
  lemma UnknownActionMessage(key: string)
    ensures ErrorMessage(UnknownAction(key)) == "Action: " + key + "; Action not found."
  {
    assert "Action: " + (key + "; Action not found.") == "Action: " + key + "; Action not found.";
  }

  /** The message of an unknown action names the key as given, so different keys log differently. */
  lemma UnknownKeyInMessage(a: string, b: string)
    requires ErrorMessage(UnknownAction(a)) == ErrorMessage(UnknownAction(b))
    ensures a == b
  {
    var m := ErrorMessage(UnknownAction(a));
    assert |a| == |b|;
    assert a == m[8..8 + |a|] == b;
  }

  /** The default opacity of `background`, `reflection` and `watermark`. */
  const DefaultOpacity := Int(100)

  /** The cases of the switch. */
  datatype Action =
    | BackgroundAction
    | CropAction
    | FlipAction
    | QualityAction
    | ReflectionAction
    | ResizeAction
    | RotateAction
    | SharpenAction
    | TypeAction
    | WatermarkAction

  /** The label of each case. */
  function Name(a: Action): string {
    match a
    case BackgroundAction => "background"
    case CropAction => "crop"
    case FlipAction => "flip"
    case QualityAction => "quality"
    case ReflectionAction => "reflection"
    case ResizeAction => "resize"
    case RotateAction => "rotate"
    case SharpenAction => "sharpen"
    case TypeAction => "type"
    case WatermarkAction => "watermark"
  }

  /** The names the switch knows, in lower case. */
  const Vocabulary: set<string> :=
    {"background", "crop", "flip", "quality", "reflection", "resize", "rotate", "sharpen", "type", "watermark"}

  /** The case a (lower-cased) name selects, if any. */
  function Classify(name: string): (r: Option<Action>)
    ensures r.Some? <==> name in Vocabulary
    ensures r.Some? ==> Name(r.value) == name
  {
    if name == "background" then Some(BackgroundAction)
    else if name == "crop" then Some(CropAction)
    else if name == "flip" then Some(FlipAction)
    else if name == "quality" then Some(QualityAction)
    else if name == "reflection" then Some(ReflectionAction)
    else if name == "resize" then Some(ResizeAction)
    else if name == "rotate" then Some(RotateAction)
    else if name == "sharpen" then Some(SharpenAction)
    else if name == "type" then Some(TypeAction)
    else if name == "watermark" then Some(WatermarkAction)
    else None
  }

  /**
   * The one required argument of `background`, `flip`, `rotate` and `sharpen`: from an array it
   * is the entry `field` when set, and any other value is taken as the argument itself.
   */
  function Primary(value: Value, field: string): (r: Option<Value>)
    ensures !value.Arr? ==> r == Some(value)
    ensures value.Arr? ==> r == Field(value, field)
  {
    if value.Arr? then Field(value, field) else Some(value)
  }

  /** The body of one case of the switch. */
  function Apply(a: Action, value: Value): (r: Result<Step, ActionError>)
    ensures r.Failure? ==> !r.error.UnknownAction?
    ensures r.Success? && r.value.SetQuality? <==> a == QualityAction && value != Null
    ensures r.Success? && r.value.SetQuality? ==> r.value.quality == value
    ensures r.Success? && r.value.NoEdit? <==> a == TypeAction
  {
    match a
    case BackgroundAction =>
      (match Primary(value, "color")
       case None => Failure(NoColor)
       case Some(color) => Success(Edit(Background(color, FieldOr(value, "opacity", DefaultOpacity)))))
    case CropAction =>
      if Field(value, "width").None? || Field(value, "height").None? then Failure(NoCropSize)
      else
        Success(Edit(Crop(
          Field(value, "width").value, Field(value, "height").value,
          FieldOr(value, "offset_x", Null), FieldOr(value, "offset_y", Null))))
    case FlipAction =>
      (match Primary(value, "direction")
       case None => Failure(NoDirection)
       case Some(direction) => Success(Edit(Flip(direction))))
    case QualityAction =>
      if value == Null then Failure(NoQuality) else Success(SetQuality(value))
    case ReflectionAction =>
      Success(Edit(Reflection(
        FieldOr(value, "height", Null), FieldOr(value, "opacity", DefaultOpacity),
        FieldOr(value, "fade_in", Bool(false)))))
    case ResizeAction =>
      Success(Edit(Resize(
        FieldOr(value, "width", Null), FieldOr(value, "height", Null), FieldOr(value, "master", Null))))
    case RotateAction =>
      (match Primary(value, "degrees")
       case None => Failure(NoDegrees)
       case Some(degrees) => Success(Edit(Rotate(degrees))))
    case SharpenAction =>
      (match Primary(value, "amount")
       case None => Failure(NoAmount)
       case Some(amount) => Success(Edit(Sharpen(amount))))
    case TypeAction =>
      Success(NoEdit)
    case WatermarkAction =>
      if value.Arr? then
        Success(Edit(Watermark(
          FieldOr(value, "watermark", Null), FieldOr(value, "offset_x", Null),
          FieldOr(value, "offset_y", Null), FieldOr(value, "opacity", DefaultOpacity))))
      else
        Success(Edit(Watermark(value, Null, Null, DefaultOpacity)))
  }

  /** One iteration of the switch: `switch (strtolower($key))`, with `default` throwing. */
  function Interpret(key: string, value: Value): (r: Result<Step, ActionError>)
    ensures r.Failure? && r.error.UnknownAction? <==> ToLower(key) !in Vocabulary
    ensures r.Failure? && r.error.UnknownAction? ==> r.error.key == key
    ensures r.Success? && r.value.SetQuality? <==> ToLower(key) == "quality" && value != Null
    ensures r.Success? && r.value.NoEdit? <==> ToLower(key) == "type"
  {
    match Classify(ToLower(key))
    case None => Failure(UnknownAction(key))
    case Some(a) => Apply(a, value)
  }

  predicate Accepted(entry: (string, Value)) {
    Interpret(entry.0, entry.1).Success?
  }

  predicate AllAccepted(opts: Assoc) {
    forall i | 0 <= i < |opts| :: Accepted(opts[i])
  }

  /** What the switch makes of one options entry. */
  type StepResult = Result<Step, ActionError>

  /** Every entry of `opts` put through the switch, in insertion order. */
  function Interpreted(opts: Assoc): (r: seq<StepResult>)
    ensures |r| == |opts|
    ensures forall i | 0 <= i < |opts| :: r[i] == Interpret(opts[i].0, opts[i].1)
  {
    seq(|opts|, i requires 0 <= i < |opts| => Interpret(opts[i].0, opts[i].1))
  }

  predicate AllSucceed(steps: seq<StepResult>) {
    forall i | 0 <= i < |steps| :: steps[i].Success?
  }

  /**
   * The walk over the options: the edits applied so far, the quality the component holds
   * afterwards, and the error that stopped the walk, if any.
   */
  datatype Run = Run(edits: seq<Op>, quality: Value, failure: Option<ActionError>)

  /** The component's quality after an accepted step. */
  function Next(step: Step, quality: Value): Value {
    if step.SetQuality? then step.quality else quality
  }

  /** The walk `r` over the remaining entries, preceded by an accepted step. */
  function Prepend(step: Step, r: Run): Run {
    if step.Edit? then r.(edits := [step.op] + r.edits) else r
  }

  /**
   * Performs the outcomes in order from the given quality and stops at the first error, which
   * is reported; the walk succeeds exactly when every outcome does.
   */
  function Walk(steps: seq<StepResult>, quality: Value): (r: Run)
    ensures r.failure.None? <==> AllSucceed(steps)
    ensures r.failure.Some? ==>
      exists i | 0 <= i < |steps| :: AllSucceed(steps[..i]) && steps[i] == Failure(r.failure.value)
    decreases |steps|
  {
    if |steps| == 0 then Run([], quality, None)
    else
      assert forall i | 0 <= i < |steps| - 1 :: steps[1..][i] == steps[i + 1];
      match steps[0]
      case Failure(e) =>
        assert AllSucceed(steps[..0]);
        Run([], quality, Some(e))
      case Success(step) =>
        var r := Walk(steps[1..], Next(step, quality));
        if r.failure.Some? then
          FailureAfterSuccess(steps, r.failure.value);
          Prepend(step, r)
        else Prepend(step, r)
  }

  /** A first error of the tail, after a successful head, is a first error of the whole. */
  lemma FailureAfterSuccess(steps: seq<StepResult>, e: ActionError)
    requires |steps| > 0 && steps[0].Success?
    requires exists i | 0 <= i < |steps[1..]| :: AllSucceed(steps[1..][..i]) && steps[1..][i] == Failure(e)
    ensures exists i | 0 <= i < |steps| :: AllSucceed(steps[..i]) && steps[i] == Failure(e)
  {
    var rest := steps[1..];
    var i :| 0 <= i < |rest| && AllSucceed(rest[..i]) && rest[i] == Failure(e);
    assert rest[i] == steps[i + 1];
    var prefix := steps[..i + 1];
    forall j | 0 <= j < |prefix| ensures prefix[j].Success? {
      if j > 0 {
        assert prefix[j] == rest[..i][j - 1];
      }
    }
  }

  /**
   * The `foreach` of `generateThumbnail`, starting from the component's current quality: it
   * completes exactly when every entry is accepted, and otherwise reports a rejected entry's error.
   */
  function Dispatch(opts: Assoc, quality: Value): (r: Run)
    ensures r.failure.None? <==> AllAccepted(opts)
    ensures r.failure.Some? ==>
      exists i | 0 <= i < |opts| :: Interpret(opts[i].0, opts[i].1) == Failure(r.failure.value)
  {
    var r := Walk(Interpreted(opts), quality);
    if r.failure.Some? then
      FailureIsAnEntry(opts, r.failure.value);
      r
    else r
  }

  lemma FailureIsAnEntry(opts: Assoc, e: ActionError)
    requires exists i | 0 <= i < |opts| :: Interpreted(opts)[i] == Failure(e)
    ensures exists i | 0 <= i < |opts| :: Interpret(opts[i].0, opts[i].1) == Failure(e)
  {
    var i :| 0 <= i < |opts| && Interpreted(opts)[i] == Failure(e);
  }

  /** The edits among `steps`, read from the end. */
  function EditsOf(steps: seq<StepResult>): seq<Op>
    decreases |steps|
  {
    if |steps| == 0 then []
    else
      var last := steps[|steps| - 1];
      EditsOf(steps[..|steps| - 1]) + (if last.Success? && last.value.Edit? then [last.value.op] else [])
  }

  /** The last quality set among `steps`, or `default` when none is. */
  function LastQuality(steps: seq<StepResult>, default: Value): Value
    decreases |steps|
  {
    if |steps| == 0 then default
    else
      var last := steps[|steps| - 1];
      if last.Success? && last.value.SetQuality? then last.value.quality
      else LastQuality(steps[..|steps| - 1], default)
  }

  /** Every slice of a sequence of successes is a sequence of successes. */
  lemma SucceedSlice(steps: seq<StepResult>, lo: nat, hi: nat)
    requires lo <= hi <= |steps| && AllSucceed(steps)
    ensures AllSucceed(steps[lo..hi])
  {
    var s := steps[lo..hi];
    forall i | 0 <= i < |s| ensures s[i].Success? {
      assert s[i] == steps[lo + i];
    }
  }

  /** A walk whose first outcome succeeds performs that step and walks on. */
  lemma WalkCons(steps: seq<StepResult>, quality: Value)
    requires |steps| > 0 && steps[0].Success?
    ensures Walk(steps, quality)
      == Prepend(steps[0].value, Walk(steps[1..], Next(steps[0].value, quality)))
  {
  }

  /** Walking `a + b` when all of `a` succeeds walks `a`, then `b` from where `a` left off. */
  lemma {:induction false} WalkAppend(a: seq<StepResult>, b: seq<StepResult>, quality: Value)
    requires AllSucceed(a)
    ensures var ra := Walk(a, quality);
      var rb := Walk(b, ra.quality);
      Walk(a + b, quality) == Run(ra.edits + rb.edits, rb.quality, rb.failure)
    decreases |a|
  {
    if |a| == 0 {
      assert a + b == b;
    } else {
      assert (a + b)[0] == a[0];
      assert (a + b)[1..] == a[1..] + b;
      SucceedSlice(a, 1, |a|);
      assert a[1..|a|] == a[1..];
      var step := a[0].value;
      var next := Next(step, quality);
      WalkCons(a, quality);
      WalkCons(a + b, quality);
      WalkAppend(a[1..], b, next);
      if step.Edit? {
        var ra := Walk(a[1..], next);
        var rb := Walk(b, ra.quality);
        assert [step.op] + (ra.edits + rb.edits) == ([step.op] + ra.edits) + rb.edits;
      }
    }
  }

  /** Walking one outcome performs it alone. */
  lemma WalkSingle(o: StepResult, quality: Value)
    ensures Walk([o], quality) ==
      if o.Failure? then Run([], quality, Some(o.error))
      else if o.value.Edit? then Run([o.value.op], quality, None)
      else if o.value.SetQuality? then Run([], o.value.quality, None)
      else Run([], quality, None)
  {
    assert [o][1..] == [];
  }

  /** A walk over successes applies their edits in order and ends with the last quality set. */
  lemma {:induction false} WalkInOrder(steps: seq<StepResult>, quality: Value)
    requires AllSucceed(steps)
    ensures Walk(steps, quality) == Run(EditsOf(steps), LastQuality(steps, quality), None)
    decreases |steps|
  {
    if |steps| > 0 {
      var init := steps[..|steps| - 1];
      var last := steps[|steps| - 1];
      assert steps == init + [last];
      SucceedSlice(steps, 0, |steps| - 1);
      WalkInOrder(init, quality);
      WalkAppend(init, [last], quality);
      WalkSingle(last, LastQuality(init, quality));
    }
  }

  /**
   * When every entry is accepted, the edits are those of the entries in insertion order and the
   * quality handed to `save` is the last one given, or the component's when none is.
   */
  lemma DispatchInInsertionOrder(opts: Assoc, quality: Value)
    requires AllAccepted(opts)
    ensures Dispatch(opts, quality)
      == Run(EditsOf(Interpreted(opts)), LastQuality(Interpreted(opts), quality), None)
  {
    WalkInOrder(Interpreted(opts), quality);
  }

  /** The outcomes of a prefix of the options are the prefix of the outcomes. */
  lemma InterpretedPrefix(opts: Assoc, i: nat)
    requires i <= |opts|
    ensures Interpreted(opts[..i]) == Interpreted(opts)[..i]
  {
  }

  /**
   * The first rejected entry decides the outcome: its error is reported, the edits before it
   * were applied, and the quality the component holds is the last one given before it.
   */
  lemma DispatchStopsAtFirstFailure(opts: Assoc, quality: Value, i: nat)
    requires i < |opts| && AllAccepted(opts[..i]) && !Accepted(opts[i])
    ensures var before := Interpreted(opts[..i]);
      Dispatch(opts, quality)
        == Run(EditsOf(before), LastQuality(before, quality), Some(Interpret(opts[i].0, opts[i].1).error))
  {
    var s := Interpreted(opts);
    InterpretedPrefix(opts, i);
    assert s == s[..i] + s[i..];
    assert AllSucceed(s[..i]) by {
      assert forall j | 0 <= j < i :: s[..i][j] == Interpret(opts[..i][j].0, opts[..i][j].1);
    }
    WalkAppend(s[..i], s[i..], quality);
    WalkInOrder(s[..i], quality);
    assert s[i..][0] == Interpret(opts[i].0, opts[i].1);
  }

  /** An unknown name aborts the walk with its own key in the error, whatever follows it. */
  lemma UnknownKeyAborts(opts: Assoc, quality: Value, i: nat)
    requires i < |opts| && AllAccepted(opts[..i]) && ToLower(opts[i].0) !in Vocabulary
    ensures Dispatch(opts, quality).failure == Some(UnknownAction(opts[i].0))
  {
    DispatchStopsAtFirstFailure(opts, quality, i);
  }

  /** Names are compared after lower-casing: a key and its lower-case form do the same thing. */
  lemma NamesMatchCaseInsensitively(key: string, value: Value)
    requires ToLower(key) in Vocabulary
    ensures Interpret(key, value) == Interpret(ToLower(key), value)
  {
    ToLowerIdempotent(key);
  }

  /** Every spelling of a case label, in any mix of upper and lower case, selects that case. */
  lemma KeySelectsCase(key: string, a: Action, value: Value)
    requires ToLower(key) == Name(a)
    ensures Interpret(key, value) == Apply(a, value)
  {
  }

  /**
   * The bare-scalar form of `background`, `flip`, `rotate` and `sharpen` behaves as the array
   * holding just the required field; for `watermark` a bare value is the watermark source.
   */
  lemma BareScalarIsPrimaryField(x: Value)
    requires !x.Arr?
    ensures x != Null ==> Apply(BackgroundAction, x) == Apply(BackgroundAction, Arr([("color", x)]))
    ensures x != Null ==> Apply(FlipAction, x) == Apply(FlipAction, Arr([("direction", x)]))
    ensures x != Null ==> Apply(RotateAction, x) == Apply(RotateAction, Arr([("degrees", x)]))
    ensures x != Null ==> Apply(SharpenAction, x) == Apply(SharpenAction, Arr([("amount", x)]))
    ensures Apply(WatermarkAction, x) == Apply(WatermarkAction, Arr([("watermark", x)]))
  {
    assert Lookup([("color", x)], "opacity") == None;
    assert Lookup([("watermark", x)], "offset_x") == None;
    assert Lookup([("watermark", x)], "offset_y") == None;
    assert Lookup([("watermark", x)], "opacity") == None;
  }

  /**
   * The cases that can reject: the structured form of `background`, `flip`, `rotate` and
   * `sharpen` is rejected exactly when its required field is not set (absent or null), `crop`
   * needs both `width` and `height` whatever the value's shape, and `quality` needs a value.
   */
  lemma RequiredFields(v: Value)
    ensures v.Arr? ==> (Apply(BackgroundAction, v).Success? <==> Field(v, "color").Some?)
    ensures v.Arr? ==> (Apply(FlipAction, v).Success? <==> Field(v, "direction").Some?)
    ensures v.Arr? ==> (Apply(RotateAction, v).Success? <==> Field(v, "degrees").Some?)
    ensures v.Arr? ==> (Apply(SharpenAction, v).Success? <==> Field(v, "amount").Some?)
    ensures Apply(CropAction, v).Success? <==> Field(v, "width").Some? && Field(v, "height").Some?
    ensures Apply(QualityAction, v).Success? <==> v != Null
  {
  }

  /** A bare value other than an array never satisfies `crop`. */
  lemma CropNeedsArray(v: Value)
    requires !v.Arr?
    ensures Apply(CropAction, v) == Failure(NoCropSize)
  {
  }

  /** The error a case reports when it rejects, or `None` for a case that never rejects. */
  function RejectionError(a: Action): Option<ActionError> {
    match a
    case BackgroundAction => Some(NoColor)
    case CropAction => Some(NoCropSize)
    case FlipAction => Some(NoDirection)
    case QualityAction => Some(NoQuality)
    case RotateAction => Some(NoDegrees)
    case SharpenAction => Some(NoAmount)
    case _ => None
  }

  /** Each case that rejects reports its own error, and a case without one never rejects. */
  lemma RejectionErrors(a: Action, v: Value)
    ensures Apply(a, v).Failure? ==> RejectionError(a) == Some(Apply(a, v).error)
    ensures RejectionError(a).None? ==> Apply(a, v).Success?
    ensures RejectionError(a).Some? <==>
      a in {BackgroundAction, CropAction, FlipAction, QualityAction, RotateAction, SharpenAction}
  {
  }

  /** `reflection`, `resize`, `watermark` and `type` accept every value; only `type` emits no edit. */
  lemma NeverRejected(v: Value)
    ensures Apply(ReflectionAction, v).Success? && Apply(ReflectionAction, v).value.Edit?
    ensures Apply(ResizeAction, v).Success? && Apply(ResizeAction, v).value.Edit?
    ensures Apply(WatermarkAction, v).Success? && Apply(WatermarkAction, v).value.Edit?
    ensures Apply(TypeAction, v) == Success(NoEdit)
  {
  }

  /**
   * `background`: a bare value is the color with opacity 100; an array needs a set `color` and
   * takes `opacity` when set, 100 otherwise.
   */
  lemma BackgroundCase(v: Value)
    ensures !v.Arr? ==> Apply(BackgroundAction, v) == Success(Edit(Background(v, Int(100))))
    ensures v.Arr? && Field(v, "color").None? ==> Apply(BackgroundAction, v) == Failure(NoColor)
    ensures Field(v, "color").Some? ==>
      var r := Apply(BackgroundAction, v);
      && r.Success? && r.value.Edit? && r.value.op.Background?
      && r.value.op.color == Field(v, "color").value
      && (Field(v, "opacity").Some? ==> r.value.op.opacity == Field(v, "opacity").value)
      && (Field(v, "opacity").None? ==> r.value.op.opacity == Int(100))
  {
  }

  /**
   * `crop`: a set `width` and `height` are required whatever the value's shape; the offsets are
   * taken when set and are null otherwise.
   */
  lemma CropCase(v: Value)
    ensures Field(v, "width").None? || Field(v, "height").None? ==> Apply(CropAction, v) == Failure(NoCropSize)
    ensures Field(v, "width").Some? && Field(v, "height").Some? ==>
      var r := Apply(CropAction, v);
      && r.Success? && r.value.Edit? && r.value.op.Crop?
      && r.value.op.width == Field(v, "width").value
      && r.value.op.height == Field(v, "height").value
      && (Field(v, "offset_x").Some? ==> r.value.op.offsetX == Field(v, "offset_x").value)
      && (Field(v, "offset_x").None? ==> r.value.op.offsetX == Null)
      && (Field(v, "offset_y").Some? ==> r.value.op.offsetY == Field(v, "offset_y").value)
      && (Field(v, "offset_y").None? ==> r.value.op.offsetY == Null)
  {
  }

  /** `flip`: a bare value is the direction; an array needs a set `direction`. */
  lemma FlipCase(v: Value)
    ensures !v.Arr? ==> Apply(FlipAction, v) == Success(Edit(Flip(v)))
    ensures v.Arr? && Field(v, "direction").None? ==> Apply(FlipAction, v) == Failure(NoDirection)
    ensures Field(v, "direction").Some? ==>
      Apply(FlipAction, v) == Success(Edit(Flip(Field(v, "direction").value)))
  {
  }

  /** `rotate`: a bare value is the angle; an array needs a set `degrees`. */
  lemma RotateCase(v: Value)
    ensures !v.Arr? ==> Apply(RotateAction, v) == Success(Edit(Rotate(v)))
    ensures v.Arr? && Field(v, "degrees").None? ==> Apply(RotateAction, v) == Failure(NoDegrees)
    ensures Field(v, "degrees").Some? ==>
      Apply(RotateAction, v) == Success(Edit(Rotate(Field(v, "degrees").value)))
  {
  }

  /** `sharpen`: a bare value is the amount; an array needs a set `amount`. */
  lemma SharpenCase(v: Value)
    ensures !v.Arr? ==> Apply(SharpenAction, v) == Success(Edit(Sharpen(v)))
    ensures v.Arr? && Field(v, "amount").None? ==> Apply(SharpenAction, v) == Failure(NoAmount)
    ensures Field(v, "amount").Some? ==>
      Apply(SharpenAction, v) == Success(Edit(Sharpen(Field(v, "amount").value)))
  {
  }

  /**
   * `reflection`: every value is accepted; `height`, `opacity` and `fade_in` are taken when set
   * and are null, 100 and false otherwise. A bare value sets none of them.
   */
  lemma ReflectionCase(v: Value)
    ensures var r := Apply(ReflectionAction, v);
      && r.Success? && r.value.Edit? && r.value.op.Reflection?
      && (Field(v, "height").Some? ==> r.value.op.height == Field(v, "height").value)
      && (Field(v, "height").None? ==> r.value.op.height == Null)
      && (Field(v, "opacity").Some? ==> r.value.op.opacity == Field(v, "opacity").value)
      && (Field(v, "opacity").None? ==> r.value.op.opacity == Int(100))
      && (Field(v, "fade_in").Some? ==> r.value.op.fadeIn == Field(v, "fade_in").value)
      && (Field(v, "fade_in").None? ==> r.value.op.fadeIn == Bool(false))
    ensures !v.Arr? ==> Apply(ReflectionAction, v) == Success(Edit(Reflection(Null, Int(100), Bool(false))))
  {
  }

  /** `resize`: every value is accepted; `width`, `height` and `master` are taken when set and are null otherwise. */
  lemma ResizeCase(v: Value)
    ensures var r := Apply(ResizeAction, v);
      && r.Success? && r.value.Edit? && r.value.op.Resize?
      && (Field(v, "width").Some? ==> r.value.op.width == Field(v, "width").value)
      && (Field(v, "width").None? ==> r.value.op.width == Null)
      && (Field(v, "height").Some? ==> r.value.op.height == Field(v, "height").value)
      && (Field(v, "height").None? ==> r.value.op.height == Null)
      && (Field(v, "master").Some? ==> r.value.op.master == Field(v, "master").value)
      && (Field(v, "master").None? ==> r.value.op.master == Null)
    ensures !v.Arr? ==> Apply(ResizeAction, v) == Success(Edit(Resize(Null, Null, Null)))
  {
  }

  /**
   * `watermark`: every value is accepted. A bare value is the watermark source with no offsets
   * and opacity 100; from an array `watermark`, `offset_x`, `offset_y` and `opacity` are taken
   * when set and are null, null, null and 100 otherwise.
   */
  lemma WatermarkCase(v: Value)
    ensures !v.Arr? ==> Apply(WatermarkAction, v) == Success(Edit(Watermark(v, Null, Null, Int(100))))
    ensures v.Arr? ==>
      var r := Apply(WatermarkAction, v);
      && r.Success? && r.value.Edit? && r.value.op.Watermark?
      && (Field(v, "watermark").Some? ==> r.value.op.source == Field(v, "watermark").value)
      && (Field(v, "watermark").None? ==> r.value.op.source == Null)
      && (Field(v, "offset_x").Some? ==> r.value.op.offsetX == Field(v, "offset_x").value)
      && (Field(v, "offset_x").None? ==> r.value.op.offsetX == Null)
      && (Field(v, "offset_y").Some? ==> r.value.op.offsetY == Field(v, "offset_y").value)
      && (Field(v, "offset_y").None? ==> r.value.op.offsetY == Null)
      && (Field(v, "opacity").Some? ==> r.value.op.opacity == Field(v, "opacity").value)
      && (Field(v, "opacity").None? ==> r.value.op.opacity == Int(100))
  {
  }

  /** `quality` stores any non-null value and rejects null; `type` does nothing. */
  lemma QualityAndTypeCases(v: Value)
    ensures v == Null ==> Apply(QualityAction, v) == Failure(NoQuality)
    ensures v != Null ==> Apply(QualityAction, v) == Success(SetQuality(v))
    ensures Apply(TypeAction, v) == Success(NoEdit)
  {
  }

  /** An options array holding only a non-null `quality` sets the quality and edits nothing. */
  lemma QualityOption(v: Value, quality: Value)
    requires v != Null
    ensures Dispatch([("quality", v)], quality) == Run([], v, None)
  {
    ToLowerNoUpper("quality");
    KeySelectsCase("quality", QualityAction, v);
    assert Interpreted([("quality", v)]) == [Success(SetQuality(v))];
    WalkSingle(Success(SetQuality(v)), quality);
  }
}

=== FILE: cache_layout.dfy ===
/**
 * Where a thumbnail lives: the values the getters of EEasyImageFile derive from the constructor
 * arguments (source image, stored base directory, options) and the environment, written as pure
 * functions. The memoising object itself is modelled in module EasyImageFile.
 */
module CacheLayout {
  import opened Wrappers
  import opened Php
  import opened Host

  /** The reserved key under which the source's absolute path is mixed into the cache key. */
  const FilemtimeKey: string := "filemtime"

  /** The option that overrides the output extension (matched exactly, not case-insensitively). */
  const TypeKey: string := "type"

  /** Everything the getters of one EEasyImageFile can return, side by side. */
  datatype Location = Location(
    originalAbsolutePath: string,
    key: Option<Digest>,
    extension: Value,
    filename: string,
    relativePath: string,
    relativeUrl: string,
    absolutePath: string,
    absoluteFilePath: string,
    absoluteUrl: string)

  /** The source image's absolute path: the web root and the caller's path, with no separator added. */
  function OriginalAbsolutePath(env: Env, image: string): string {
    env.webroot + image
  }

  /** `$metadata + array('filemtime' => <original absolute path>)`, the array that is serialised. */
  function KeyedOptions(env: Env, image: string, metadata: Assoc): (r: Assoc)
    ensures metadata <= r
    ensures Keys(r) == Keys(metadata) + {FilemtimeKey}
    ensures FilemtimeKey !in Keys(metadata) ==> r == metadata + [(FilemtimeKey, Str(env.webroot + image))]
    ensures FilemtimeKey in Keys(metadata) ==> r == metadata
    ensures Lookup(r, FilemtimeKey) ==
      if FilemtimeKey in Keys(metadata) then Lookup(metadata, FilemtimeKey) else Some(Str(env.webroot + image))
  {
    PlusEntry(metadata, FilemtimeKey, Str(OriginalAbsolutePath(env, image)))
  }

  /** The text whose MD5 digest is the cache key: the relative path, then the serialised options. */
  function KeyMaterial(env: Env, image: string, metadata: Assoc): string {
    image + env.serialize(KeyedOptions(env, image, metadata))
  }

  /** `getCacheKey()`: a digest when options were given; PHP `null` when the options array is empty. */
  function CacheKey(env: Env, image: string, metadata: Assoc): (r: Option<Digest>)
    ensures r.Some? <==> |metadata| > 0
    ensures r.Some? ==> r.value == env.md5(KeyMaterial(env, image, metadata))
  {
    if |metadata| == 0 then None else Some(env.md5(KeyMaterial(env, image, metadata)))
  }

  /** `getExtension()`: the `type` option when it is set, else the source's own extension. */
  function Extension(image: string, metadata: Assoc): (r: Value)
    ensures Lookup(metadata, TypeKey).Some? && Lookup(metadata, TypeKey).value != Null ==>
      r == Lookup(metadata, TypeKey).value
    ensures Lookup(metadata, TypeKey).None? || Lookup(metadata, TypeKey).value == Null ==>
      r == Str(PathinfoExtension(image))
  {
    match IssetKey(metadata, TypeKey)
    case Some(t) => t
    case None => Str(PathinfoExtension(image))
  }

  /** The key as a PHP value: the digest string, or `null`. */
  function KeyValue(key: Option<Digest>): Value {
    match key
    case Some(k) => Str(k)
    case None => Null
  }

  /**
   * The key as PHP's `.` and `sprintf('%s')` render it: 32 hex characters, or "" for a null
   * key, so an absent key leaves no trace in the file name.
   */
  function KeyText(key: Option<Digest>): (r: string)
    ensures r == ToPhpString(KeyValue(key))
    ensures r == "" <==> key.None?
    ensures key.Some? ==> IsHexDigest(r)
  {
    match key
    case Some(k) => k
    case None => ""
  }

  /**
   * `$key{i}` as rendered by `sprintf('%s')`: the one-character string at offset `i` of the
   * rendered key, or "" for a null key, since `null{i}` is `null` in PHP 5.4 to 7.3.
   */
  function Shard(key: Option<Digest>, i: nat): (r: string)
    requires i < 32
    ensures key.None? ==> r == ""
    ensures key.Some? ==> |r| == 1 && r[0] == KeyText(key)[i] && IsLowerHex(r[0])
  {
    match key
    case Some(k) => [k[i]]
    case None => ""
  }

  /** `getFilename()`. */
  function Filename(key: Option<Digest>, extension: Value): string {
    KeyText(key) + "." + ToPhpString(extension)
  }

  /** `getRelativePath()`: the two shard levels are the last and the second-to-last key characters. */
  function RelativePath(base: string, key: Option<Digest>): string {
    base + "/" + Shard(key, 31) + "/" + Shard(key, 30)
  }

  /** `getRelativeUrl()`. */
  function RelativeUrl(base: string, key: Option<Digest>, extension: Value): string {
    RTrim(RelativePath(base, key), '/') + "/" + Filename(key, extension)
  }

  /** `getAbsolutePath()`: the directory of the cached file. */
  function AbsolutePath(env: Env, base: string, key: Option<Digest>): string {
    RTrim(env.webroot, '/') + "/" + RelativePath(base, key)
  }

  /** `getAbsoluteFilePath()`: where the thumbnail is written and looked for. */
  function AbsoluteFilePath(env: Env, base: string, key: Option<Digest>, extension: Value): string {
    RTrim(AbsolutePath(env, base, key), '/') + "/" + Filename(key, extension)
  }

  /** `getAbsoluteUrl()`: the URL handed to the browser after generation. */
  function AbsoluteUrl(env: Env, base: string, key: Option<Digest>, extension: Value): string {
    RTrim(env.baseUrl, '/') + "/" + RelativeUrl(base, key, extension)
  }

  /** The getters that only join what the ones above derive, for a given key and extension. */
  function LocateWith(env: Env, image: string, base: string, key: Option<Digest>, extension: Value): Location {
    Location(
      OriginalAbsolutePath(env, image),
      key,
      extension,
      Filename(key, extension),
      RelativePath(base, key),
      RelativeUrl(base, key, extension),
      AbsolutePath(env, base, key),
      AbsoluteFilePath(env, base, key, extension),
      AbsoluteUrl(env, base, key, extension))
  }

  /** Every getter of an EEasyImageFile built from `image`, the stored `base` and `metadata`. */
  function Locate(env: Env, image: string, base: string, metadata: Assoc): (loc: Location)
    ensures EndsWith(loc.relativeUrl, "/" + loc.filename)
    ensures EndsWith(loc.absoluteFilePath, "/" + loc.filename)
  {
    var loc := LocateWith(env, image, base, CacheKey(env, image, metadata), Extension(image, metadata));
    JoinEndsWith(loc.relativePath, loc.filename);
    JoinEndsWith(loc.absolutePath, loc.filename);
    loc
  }

  /** `rtrim` leaves alone a string whose last character is not the one trimmed. */
  lemma RTrimKeeps(s: string, c: char)
    requires |s| > 0 && s[|s| - 1] != c
    ensures RTrim(s, c) == s
  {
  }

  /** The directories of a keyed location end in a shard character, so `rtrim` keeps them whole. */
  lemma KeyedDirectories(env: Env, base: string, k: Digest)
    ensures RelativePath(base, Some(k)) == base + "/" + [k[31]] + "/" + [k[30]]
    ensures RTrim(RelativePath(base, Some(k)), '/') == RelativePath(base, Some(k))
    ensures RTrim(AbsolutePath(env, base, Some(k)), '/') == AbsolutePath(env, base, Some(k))
  {
    var rp := base + "/" + [k[31]] + "/";
    assert IsLowerHex(k[30]);
    assert RelativePath(base, Some(k)) == rp + [k[30]];
    RTrimKeeps(rp + [k[30]], '/');
    var w := RTrim(env.webroot, '/');
    assert AbsolutePath(env, base, Some(k)) == (w + "/" + rp) + [k[30]];
    RTrimKeeps((w + "/" + rp) + [k[30]], '/');
  }

  /** A keyed file path is the trimmed web root, "/", and the relative URL. */
  lemma KeyedFile(env: Env, base: string, k: Digest, extension: Value)
    ensures RelativeUrl(base, Some(k), extension) == RelativePath(base, Some(k)) + "/" + Filename(Some(k), extension)
    ensures AbsoluteFilePath(env, base, Some(k), extension)
      == RTrim(env.webroot, '/') + "/" + RelativeUrl(base, Some(k), extension)
  {
    KeyedDirectories(env, base, k);
    var w := RTrim(env.webroot, '/');
    var rp := RelativePath(base, Some(k));
    var f := Filename(Some(k), extension);
    calc {
      AbsoluteFilePath(env, base, Some(k), extension);
      RTrim(AbsolutePath(env, base, Some(k)), '/') + "/" + f;
      AbsolutePath(env, base, Some(k)) + "/" + f;
      w + "/" + rp + "/" + f;
      w + "/" + (rp + "/" + f);
    }
  }

  /**
   * With options given, the cached file sits two shard levels below the base directory, named
   * by the last and the second-to-last key characters, and its URL and its file path are the
   * base URL and the web root followed by the same relative URL.
   */
  lemma KeyedLayout(env: Env, image: string, base: string, metadata: Assoc)
    requires |metadata| > 0
    ensures var loc := Locate(env, image, base, metadata);
      var k := loc.key.value;
      && loc.relativePath == base + "/" + [k[31]] + "/" + [k[30]]
      && loc.filename == k + "." + ToPhpString(loc.extension)
      && loc.relativeUrl == loc.relativePath + "/" + loc.filename
      && loc.absoluteFilePath == RTrim(env.webroot, '/') + "/" + loc.relativeUrl
      && loc.absoluteUrl == RTrim(env.baseUrl, '/') + "/" + loc.relativeUrl
      && IsLowerHex(k[31]) && IsLowerHex(k[30])
  {
    var k := CacheKey(env, image, metadata).value;
    var e := Extension(image, metadata);
    assert Locate(env, image, base, metadata) == LocateWith(env, image, base, Some(k), e);
    KeyedDirectories(env, base, k);
    KeyedFile(env, base, k, e);
  }

  /** The relative part of a location that has no key. */
  lemma NullKeyRelative(base: string, extension: Value)
    requires |base| == 0 || base[|base| - 1] != '/'
    ensures RelativePath(base, None) == base + "//"
    ensures Filename(None, extension) == "." + ToPhpString(extension)
    ensures RelativeUrl(base, None, extension) == base + "/" + Filename(None, extension)
  {
    assert RelativePath(base, None) == base + "//" by {
      assert base + "/" + "" + "/" + "" == base + "//";
    }
    RTrimAppended(base, '/', "//");
  }

  /** The directory of a location that has no key trims back to the web root and the base. */
  lemma NullKeyDirectory(env: Env, base: string)
    requires |base| == 0 || base[|base| - 1] != '/'
    ensures var w := RTrim(env.webroot, '/');
      RTrim(AbsolutePath(env, base, None), '/') == if |base| > 0 then w + "/" + base else w
  {
    var w := RTrim(env.webroot, '/');
    NullKeyRelative(base, Null);
    if |base| > 0 {
      var wb := w + "/" + base;
      assert wb[|wb| - 1] == base[|base| - 1];
      assert w + "/" + (base + "//") == wb + "//";
      RTrimAppended(wb, '/', "//");
    } else {
      assert w + "/" + (base + "//") == w + "///";
      RTrimAppended(w, '/', "///");
    }
  }

  /** The absolute file path of a location that has no key, under a non-empty base directory. */
  lemma NullKeyAbsolute(env: Env, base: string, extension: Value)
    requires |base| > 0 && base[|base| - 1] != '/'
    ensures AbsoluteFilePath(env, base, None, extension)
      == RTrim(env.webroot, '/') + "/" + RelativeUrl(base, None, extension)
  {
    var w := RTrim(env.webroot, '/');
    var f := Filename(None, extension);
    calc {
      AbsoluteFilePath(env, base, None, extension);
      RTrim(AbsolutePath(env, base, None), '/') + "/" + f;
      { NullKeyDirectory(env, base); }
      w + "/" + base + "/" + f;
      w + "/" + (base + "/" + f);
      { NullKeyRelative(base, extension); }
      w + "/" + RelativeUrl(base, None, extension);
    }
  }

  /** The absolute file path of a location that has no key, under an empty base directory. */
  lemma NullKeyAbsoluteAtRoot(env: Env, extension: Value)
    ensures AbsoluteFilePath(env, "", None, extension)
      == RTrim(env.webroot, '/') + RelativeUrl("", None, extension)
  {
    var w := RTrim(env.webroot, '/');
    var f := Filename(None, extension);
    NullKeyRelative("", extension);
    assert RelativeUrl("", None, extension) == "/" + f by {
      assert "" + "/" + f == "/" + f;
    }
    calc {
      AbsoluteFilePath(env, "", None, extension);
      RTrim(AbsolutePath(env, "", None), '/') + "/" + f;
      { NullKeyDirectory(env, ""); }
      w + "/" + f;
      w + ("/" + f);
    }
  }

  /** With no options, `Locate` is the key-less location with the source's own extension. */
  lemma LocateWithoutOptions(env: Env, image: string, base: string)
    ensures Locate(env, image, base, []) == LocateWith(env, image, base, None, Str(PathinfoExtension(image)))
  {
    assert Lookup([], TypeKey).None?;
  }

  /** The getters for no key and a given extension. */
  lemma UnkeyedWith(env: Env, image: string, base: string, e: Value)
    requires |base| == 0 || base[|base| - 1] != '/'
    ensures var loc := LocateWith(env, image, base, None, e);
      && loc.relativePath == base + "//"
      && loc.filename == "." + ToPhpString(e)
      && loc.relativeUrl == base + "/" + loc.filename
      && (|base| > 0 ==> loc.absoluteFilePath == RTrim(env.webroot, '/') + "/" + loc.relativeUrl)
      && (|base| == 0 ==> loc.absoluteFilePath == RTrim(env.webroot, '/') + loc.relativeUrl)
      && loc.absoluteUrl == RTrim(env.baseUrl, '/') + "/" + loc.relativeUrl
  {
    NullKeyRelative(base, e);
    if |base| > 0 {
      NullKeyAbsolute(env, base, e);
    } else {
      NullKeyAbsoluteAtRoot(env, e);
    }
  }

  /**
   * With no options there is no key: both shard levels are empty, so the relative path ends in
   * "//" and the file name is "." followed by the source's extension.
   */
  lemma UnkeyedLayout(env: Env, image: string, base: string)
    requires |base| == 0 || base[|base| - 1] != '/'
    ensures var loc := Locate(env, image, base, []);
      && loc.key.None?
      && loc.relativePath == base + "//"
      && loc.filename == "." + PathinfoExtension(image)
      && loc.relativeUrl == base + "/" + loc.filename
  {
    var x := PathinfoExtension(image);
    LocateWithoutOptions(env, image, base);
    UnkeyedWith(env, image, base, Str(x));
    assert ToPhpString(Str(x)) == x;
  }

  /**
   * With no options the file path is the trimmed web root, "/", and the relative URL, except
   * that the "/" is missing when the base trims to nothing; the URL always has it.
   */
  lemma UnkeyedAbsolute(env: Env, image: string, base: string)
    requires |base| == 0 || base[|base| - 1] != '/'
    ensures var loc := Locate(env, image, base, []);
      && (|base| > 0 ==> loc.absoluteFilePath == RTrim(env.webroot, '/') + "/" + loc.relativeUrl)
      && (|base| == 0 ==> loc.absoluteFilePath == RTrim(env.webroot, '/') + loc.relativeUrl)
      && loc.absoluteUrl == RTrim(env.baseUrl, '/') + "/" + loc.relativeUrl
  {
    LocateWithoutOptions(env, image, base);
    UnkeyedWith(env, image, base, Str(PathinfoExtension(image)));
  }

  /**
   * The URL handed out and the file written name the same relative location, except when the
   * options are empty and the base directory trims to nothing.
   */
  lemma UrlAndFileAgree(env: Env, image: string, base: string, metadata: Assoc)
    requires |base| == 0 || base[|base| - 1] != '/'
    requires |metadata| > 0 || |base| > 0
    ensures var loc := Locate(env, image, base, metadata);
      && loc.absoluteFilePath == RTrim(env.webroot, '/') + "/" + loc.relativeUrl
      && loc.absoluteUrl == RTrim(env.baseUrl, '/') + "/" + loc.relativeUrl
  {
    if |metadata| > 0 {
      KeyedLayout(env, image, base, metadata);
    } else {
      assert metadata == [];
      UnkeyedAbsolute(env, image, base);
    }
  }

  /** The URLs of a location: the relative URL for its key and extension, and the base URL joined to it. */
  lemma LocateUrls(env: Env, image: string, base: string, metadata: Assoc)
    ensures var loc := Locate(env, image, base, metadata);
      && loc.relativeUrl == RelativeUrl(base, CacheKey(env, image, metadata), Extension(image, metadata))
      && loc.absoluteUrl == RTrim(env.baseUrl, '/') + "/" + loc.relativeUrl
  {
  }

  /** A base directory that is empty or starts with `/` gives a relative URL starting with `/`. */
  lemma RelativeUrlRooted(base: string, key: Option<Digest>, extension: Value)
    requires |base| == 0 || base[0] == '/'
    ensures |RelativeUrl(base, key, extension)| > 0 && RelativeUrl(base, key, extension)[0] == '/'
  {
    var p := RelativePath(base, key);
    assert p[0] == '/';
    var t := RTrim(p, '/');
    assert |t| > 0 ==> t[0] == p[0];
  }

  /** The relative URL holds the `.` between the key and the extension. */
  lemma RelativeUrlHasDot(base: string, key: Option<Digest>, extension: Value)
    ensures var u := RelativeUrl(base, key, extension);
      |u| > |ToPhpString(extension)| && u[|u| - |ToPhpString(extension)| - 1] == '.'
  {
    var e := ToPhpString(extension);
    var u := RelativeUrl(base, key, extension);
    assert u == (RTrim(RelativePath(base, key), '/') + "/" + KeyText(key)) + ("." + e);
  }

  /**
   * The evidently intended URL join: the trimmed base URL, one `/`, and the relative URL with
   * its leading slashes dropped, so the two parts are never separated by `//`. When the
   * relative URL has no leading `/`, it is the join the getters perform.
   */
  function IntendedUrlJoin(baseUrl: string, relativeUrl: string): (r: string)
    ensures RTrim(baseUrl, '/') + "/" <= r
    ensures |r| > |RTrim(baseUrl, '/')| + 1 ==> r[|RTrim(baseUrl, '/')| + 1] != '/'
    ensures EndsWith(r, LTrim(relativeUrl, '/'))
    ensures |relativeUrl| == 0 || relativeUrl[0] != '/' ==> r == RTrim(baseUrl, '/') + "/" + relativeUrl
  {
    EndsWithConcat(RTrim(baseUrl, '/') + "/", LTrim(relativeUrl, '/'));
    RTrim(baseUrl, '/') + "/" + LTrim(relativeUrl, '/')
  }

  /**
   * As written, every source image requested with no options and with the same extension is
   * cached under one and the same file and URL, whatever its path.
   */
  lemma EmptyOptionsShareCacheFile(env: Env, base: string, a: string, b: string)
    requires PathinfoExtension(a) == PathinfoExtension(b)
    ensures Locate(env, a, base, []).absoluteFilePath == Locate(env, b, base, []).absoluteFilePath
    ensures Locate(env, a, base, []).absoluteUrl == Locate(env, b, base, []).absoluteUrl
    ensures Locate(env, a, base, []).relativeUrl == Locate(env, b, base, []).relativeUrl
  {
    LocateWithoutOptions(env, a, base);
    LocateWithoutOptions(env, b, base);
  }

  /** The evidently intended key: the digest is taken whether or not options were given. */
  function IntendedCacheKey(env: Env, image: string, metadata: Assoc): (r: Digest)
    ensures |metadata| > 0 ==> CacheKey(env, image, metadata) == Some(r)
  {
    env.md5(KeyMaterial(env, image, metadata))
  }

  /** The location derived from the intended key. */
  function IntendedLocate(env: Env, image: string, base: string, metadata: Assoc): (loc: Location)
    ensures |metadata| > 0 ==> loc == Locate(env, image, base, metadata)
  {
    LocateWith(env, image, base, Some(IntendedCacheKey(env, image, metadata)), Extension(image, metadata))
  }

  /** A file path ending in `"/" + k + "." + e` gives back `k` from its last characters. */
  lemma DigestFromPath(p: string, prefix: string, k: Digest, e: string)
    requires p == prefix + "/" + (k + "." + e)
    ensures |p| >= |e| + 33
    ensures p[|p| - |e| - 33..|p| - |e| - 1] == k
  {
    assert p == (prefix + "/") + k + ("." + e);
  }

  /**
   * With the intended key, two sources whose outputs share an extension land on the same cached
   * file only when the digests of their key material coincide.
   */
  lemma IntendedFilesCollideOnlyOnDigestCollision(
    env: Env, base: string, a: string, ma: Assoc, b: string, mb: Assoc)
    requires ToPhpString(Extension(a, ma)) == ToPhpString(Extension(b, mb))
    requires IntendedLocate(env, a, base, ma).absoluteFilePath == IntendedLocate(env, b, base, mb).absoluteFilePath
    ensures IntendedCacheKey(env, a, ma) == IntendedCacheKey(env, b, mb)
  {
    var la := IntendedLocate(env, a, base, ma);
    var lb := IntendedLocate(env, b, base, mb);
    var e := ToPhpString(Extension(a, ma));
    assert la.filename == IntendedCacheKey(env, a, ma) + "." + e;
    assert lb.filename == IntendedCacheKey(env, b, mb) + "." + e;
    DigestFromPath(la.absoluteFilePath, RTrim(la.absolutePath, '/'), IntendedCacheKey(env, a, ma), e);
    DigestFromPath(lb.absoluteFilePath, RTrim(lb.absolutePath, '/'), IntendedCacheKey(env, b, mb), e);
  }
}

=== FILE: easy_image.dfy ===
/**
 * The EEasyImage application component: its configuration, `init`, `getFilePath`,
 * `generateThumbnail`, and the two URL entry points `generateThumbnailUrl` (serve from the
 * cache or generate, logging any exception and answering null) and `getThumbnailUrl` (the
 * relative URL, never generating). The image library is a parameter: whether loading the
 * source throws, and what `save` answers.
 */
module EasyImage {
  import opened Wrappers
  import opened Php
  import opened Host
  import opened CacheLayout
  import opened EasyImageFile
  import opened Actions

  /** `$relativeCachePath` when not configured. */
  const DefaultRelativeCachePath: string := "/assets/easyimage/"

  /** `$timeout` when not configured: 30 days, in seconds. */
  const DefaultTimeout: int := 2592000

  /** `$quality` when not configured. */
  const DefaultQuality: Value := Int(100)

  /**
   * The component's configurable state. `cachePath` is the deprecated alias of
   * `relativeCachePath`; `quality` is changed by the `quality` option and kept afterwards.
   */
  datatype Component = Component(
    relativeCachePath: string,
    cachePath: Option<string>,
    timeout: int,
    quality: Value)

  /** A component with nothing configured. */
  const Unconfigured := Component(DefaultRelativeCachePath, None, DefaultTimeout, DefaultQuality)

  /** PHP `empty()` of the optional `$cachePath`. */
  predicate CachePathEmpty(c: Component) {
    c.cachePath.None? || EmptyString(c.cachePath.value)
  }

  /** `init()`: a non-empty deprecated `cachePath` replaces `relativeCachePath`. */
  function Init(c: Component): (r: Component)
    ensures !CachePathEmpty(c) ==> r.relativeCachePath == c.cachePath.value
    ensures CachePathEmpty(c) ==> r.relativeCachePath == c.relativeCachePath
    ensures r.cachePath == c.cachePath && r.timeout == c.timeout && r.quality == c.quality
  {
    if CachePathEmpty(c) then c else c.(relativeCachePath := c.cachePath.value)
  }

  /** Running `init` again changes nothing. */
  lemma InitIdempotent(c: Component)
    ensures Init(Init(c)) == Init(c)
  {
  }

  /** With nothing configured, the cache lives under `/assets/easyimage/`. */
  lemma InitDefaults()
    ensures Init(Unconfigured) == Unconfigured
    ensures Init(Unconfigured).relativeCachePath == "/assets/easyimage/"
  {
  }

  /**
   * `getFilePath()`: the web root, a slash and the image when that names a file; otherwise the
   * image path is taken as it is. Either way the answer ends with the image path.
   */
  function FilePath(env: Env, fs: FileSystem, image: string): (r: string)
    ensures fs.isFile(env.webroot + "/" + image) ==> r == env.webroot + "/" + image
    ensures !fs.isFile(env.webroot + "/" + image) ==> r == image
    ensures EndsWith(r, image)
  {
    var path := env.webroot + "/" + image;
    if fs.isFile(path) then
      assert path == (env.webroot + "/") + image;
      EndsWithConcat(env.webroot + "/", image);
      path
    else
      EndsWithConcat("", image);
      assert "" + image == image;
      image
  }

  /** The arguments of the library's `save`: where from, where to, the edits, the quality. */
  datatype SaveCall = SaveCall(source: string, destination: string, edits: seq<Op>, quality: Value)

  /** What `save` does: it answers a boolean, or throws with a message. */
  datatype SaveResult = Saved(ok: bool) | Threw(message: string)

  /**
   * The image library as seen from the component: `load` gives the message of the exception
   * `Image::factory` throws for a path, if it throws, and `save` performs a save call.
   */
  datatype Engine = Engine(load: string -> Option<string>, save: SaveCall -> SaveResult)

  /** The outcome of `generateThumbnail`: `save`'s answer or an exception message, and the component after it. */
  datatype Generation = Generation(result: Result<bool, string>, component: Component, call: Option<SaveCall>)

  /**
   * `generateThumbnail()`: load the source through `getFilePath`, walk the options (the
   * component's quality changes as they are walked, even when a later entry throws), and save
   * to the cached file's absolute path with the quality reached.
   */
  function GenerateThumbnail(c: Component, env: Env, fs: FileSystem, engine: Engine, f: ImageFile)
    : (g: Generation)
    requires Consistent(f, env)
    ensures var source := FilePath(env, fs, f.originalRelativePath);
      g.call.Some? <==> engine.load(source).None? && AllAccepted(f.metadata)
    ensures var steps := Interpreted(f.metadata);
      g.call.Some? ==> g.call.value == SaveCall(
        FilePath(env, fs, f.originalRelativePath), Layout(f, env).absoluteFilePath,
        EditsOf(steps), LastQuality(steps, c.quality))
    ensures g.result.Success? <==> g.call.Some? && engine.save(g.call.value).Saved?
    ensures g.result.Success? ==> g.result.value == engine.save(g.call.value).ok
    ensures var load := engine.load(FilePath(env, fs, f.originalRelativePath));
      load.Some? ==> g.result == Failure(load.value)
    ensures engine.load(FilePath(env, fs, f.originalRelativePath)).None? && !AllAccepted(f.metadata) ==>
      g.result == Failure(ErrorMessage(Dispatch(f.metadata, c.quality).failure.value))
    ensures g.call.Some? && engine.save(g.call.value).Threw? ==>
      g.result == Failure(engine.save(g.call.value).message)
    ensures engine.load(FilePath(env, fs, f.originalRelativePath)).Some? ==> g.component == c
    ensures engine.load(FilePath(env, fs, f.originalRelativePath)).None? ==>
      g.component == c.(quality := Dispatch(f.metadata, c.quality).quality)
  {
    var source := FilePath(env, fs, GetOriginalRelativePath(f));
    match engine.load(source)
    case Some(error) => Generation(Failure(error), c, None)
    case None =>
      var run := Dispatch(GetMetadata(f), c.quality);
      var c1 := c.(quality := run.quality);
      if run.failure.Some? then Generation(Failure(ErrorMessage(run.failure.value)), c1, None)
      else
        DispatchInInsertionOrder(f.metadata, c.quality);
        var call := SaveCall(source, GetAbsoluteFilePath(f, env).0, run.edits, run.quality);
        match engine.save(call)
        case Threw(message) => Generation(Failure(message), c1, Some(call))
        case Saved(ok) => Generation(Success(ok), c1, Some(call))
  }

  /** The cached file at `path` is still fresh: it exists and is younger than `timeout` seconds. */
  predicate IsFresh(fs: FileSystem, path: string, timeout: int) {
    fs.fileExists(path) && fs.now - fs.mtime(path) < timeout
  }

  /** A cached file is fresh exactly while its age is strictly below the timeout. */
  lemma StalenessBoundary(fs: FileSystem, path: string, timeout: int)
    requires fs.fileExists(path)
    ensures IsFresh(fs, path, timeout) <==> fs.mtime(path) > fs.now - timeout
    ensures fs.mtime(path) == fs.now - timeout ==> !IsFresh(fs, path, timeout)
    ensures fs.mtime(path) == fs.now - timeout + 1 ==> IsFresh(fs, path, timeout)
  {
  }

  /** The outcome of `generateThumbnailUrl`: the URL or null, the save performed, the component after, what was logged. */
  datatype Outcome = Outcome(url: Option<string>, call: Option<SaveCall>, component: Component, logged: Option<string>)

  /** Where the component puts the thumbnail of `image` with `options`. */
  function Target(c: Component, env: Env, image: string, options: Assoc): Location {
    Locate(env, image, RTrim(c.relativeCachePath, '/'), options)
  }

  /**
   * `generateThumbnailUrl()`: a fresh cached file is served by its absolute URL; otherwise the
   * thumbnail is generated and the absolute URL returned. Any exception on the way is logged
   * and the answer is null.
   */
  function GenerateThumbnailUrl(c: Component, env: Env, fs: FileSystem, engine: Engine, image: string, options: Assoc)
    : (r: Outcome)
    ensures r.url.None? <==> r.logged.Some?
    ensures r.url.Some? ==> r.url.value == Target(c, env, image, options).absoluteUrl
    ensures !fs.fileExists(env.webroot + image) ==>
      r == Outcome(None, None, c, Some(MissingImage(env.webroot + image)))
    ensures fs.fileExists(env.webroot + image) && IsFresh(fs, Target(c, env, image, options).absoluteFilePath, c.timeout) ==>
      r == Outcome(Some(Target(c, env, image, options).absoluteUrl), None, c, None)
    ensures r.call.Some? ==> !IsFresh(fs, Target(c, env, image, options).absoluteFilePath, c.timeout)
    ensures r.call.Some? ==> r.call.value.destination == Target(c, env, image, options).absoluteFilePath
  {
    match New(env, fs, image, c.relativeCachePath, options)
    case Failure(message) => Outcome(None, None, c, Some(message))
    case Success(f) =>
      var (file, f1) := GetAbsoluteFilePath(f, env);
      if IsFresh(fs, file, c.timeout) then
        Outcome(Some(GetAbsoluteUrl(f1, env).0), None, c, None)
      else
        var g := GenerateThumbnail(c, env, fs, engine, f1);
        match g.result
        case Failure(message) => Outcome(None, g.call, g.component, Some(message))
        case Success(_) => Outcome(Some(GetAbsoluteUrl(f1, env).0), g.call, g.component, None)
  }

  /**
   * On a miss, a save is attempted exactly when the source loads and every option is accepted;
   * it receives the edits in insertion order and the last quality given, and the URL is
   * answered exactly when the save does not throw, whatever boolean it answers.
   */
  lemma MissGeneratesOnce(c: Component, env: Env, fs: FileSystem, engine: Engine, image: string, options: Assoc)
    requires fs.fileExists(env.webroot + image)
    requires !IsFresh(fs, Target(c, env, image, options).absoluteFilePath, c.timeout)
    ensures var r := GenerateThumbnailUrl(c, env, fs, engine, image, options);
      r.call.Some? <==> engine.load(FilePath(env, fs, image)).None? && AllAccepted(options)
    ensures var r := GenerateThumbnailUrl(c, env, fs, engine, image, options);
      var steps := Interpreted(options);
      r.call.Some? ==> r.call.value == SaveCall(
        FilePath(env, fs, image), Target(c, env, image, options).absoluteFilePath,
        EditsOf(steps), LastQuality(steps, c.quality))
    ensures var r := GenerateThumbnailUrl(c, env, fs, engine, image, options);
      r.url.Some? <==> r.call.Some? && engine.save(r.call.value).Saved?
    ensures var r := GenerateThumbnailUrl(c, env, fs, engine, image, options);
      var load := engine.load(FilePath(env, fs, image));
      load.Some? ==> r.logged == Some(load.value)
    ensures var r := GenerateThumbnailUrl(c, env, fs, engine, image, options);
      engine.load(FilePath(env, fs, image)).None? && !AllAccepted(options) ==>
        r.logged == Some(ErrorMessage(Dispatch(options, c.quality).failure.value))
    ensures var r := GenerateThumbnailUrl(c, env, fs, engine, image, options);
      r.call.Some? && engine.save(r.call.value).Threw? ==> r.logged == Some(engine.save(r.call.value).message)
  {
  }

  /**
   * On a miss, the first option the switch rejects decides what is logged: its own message, and
   * for a name outside the vocabulary `Action: <key>; Action not found.` with the key as given.
   */
  lemma RejectedOptionIsLogged(
    c: Component, env: Env, fs: FileSystem, engine: Engine, image: string, options: Assoc, i: nat)
    requires fs.fileExists(env.webroot + image)
    requires !IsFresh(fs, Target(c, env, image, options).absoluteFilePath, c.timeout)
    requires engine.load(FilePath(env, fs, image)).None?
    requires i < |options| && AllAccepted(options[..i]) && !Accepted(options[i])
    ensures var r := GenerateThumbnailUrl(c, env, fs, engine, image, options);
      r.url.None? && r.call.None? && r.logged == Some(ErrorMessage(Interpret(options[i].0, options[i].1).error))
    ensures ToLower(options[i].0) !in Vocabulary ==>
      GenerateThumbnailUrl(c, env, fs, engine, image, options).logged
        == Some("Action: " + options[i].0 + "; Action not found.")
  {
    var e := Interpret(options[i].0, options[i].1).error;
    assert !AllAccepted(options) by {
      assert !Accepted(options[i]);
    }
    DispatchStopsAtFirstFailure(options, c.quality, i);
    assert Dispatch(options, c.quality).failure == Some(e);
    MissGeneratesOnce(c, env, fs, engine, image, options);
    if ToLower(options[i].0) !in Vocabulary {
      UnknownActionMessage(options[i].0);
    }
  }

  /** Options with a rejected entry never reach `save`: the answer is null unless the cache already holds a fresh file. */
  lemma InvalidOptionsNeverSave(c: Component, env: Env, fs: FileSystem, engine: Engine, image: string, options: Assoc)
    requires !AllAccepted(options)
    ensures GenerateThumbnailUrl(c, env, fs, engine, image, options).call.None?
    ensures !IsFresh(fs, Target(c, env, image, options).absoluteFilePath, c.timeout) ==>
      GenerateThumbnailUrl(c, env, fs, engine, image, options).url.None?
  {
  }

  /** A save that answers false is not an exception: the URL is still returned. */
  lemma FailedSaveStillYieldsUrl(c: Component, env: Env, fs: FileSystem, engine: Engine, image: string, options: Assoc)
    requires forall call :: engine.save(call) == Saved(false)
    requires fs.fileExists(env.webroot + image) && engine.load(FilePath(env, fs, image)).None?
    requires AllAccepted(options)
    ensures GenerateThumbnailUrl(c, env, fs, engine, image, options).url
      == Some(Target(c, env, image, options).absoluteUrl)
  {
    if !IsFresh(fs, Target(c, env, image, options).absoluteFilePath, c.timeout) {
      MissGeneratesOnce(c, env, fs, engine, image, options);
    }
  }

  /** `getThumbnailUrl()`: the relative URL of the cached file, whether or not it exists. */
  function GetThumbnailUrl(c: Component, env: Env, fs: FileSystem, image: string, options: Assoc)
    : (r: Result<string, string>)
    ensures r.Success? <==> fs.fileExists(env.webroot + image)
    ensures r.Success? ==> r.value == Target(c, env, image, options).relativeUrl
    ensures r.Failure? ==> r.error == MissingImage(env.webroot + image)
  {
    var f :- New(env, fs, image, c.relativeCachePath, options);
    Success(GetRelativeUrl(f, env).0)
  }

  /**
   * The URL `generateThumbnailUrl` answers is the base URL joined to the one `getThumbnailUrl`
   * answers, and `getThumbnailUrl` never generates: its answer does not depend on the library.
   */
  lemma GeneratedUrlExtendsRelativeUrl(
    c: Component, env: Env, fs: FileSystem, engine: Engine, image: string, options: Assoc)
    requires GenerateThumbnailUrl(c, env, fs, engine, image, options).url.Some?
    ensures GetThumbnailUrl(c, env, fs, image, options).Success?
    ensures GenerateThumbnailUrl(c, env, fs, engine, image, options).url.value
      == RTrim(env.baseUrl, '/') + "/" + GetThumbnailUrl(c, env, fs, image, options).value
  {
  }

  /**
   * When the cache path is a directory followed by one `/`, every call with no options is
   * cached at one relative URL per extension: the cache path, `.` and the extension.
   */
  lemma UnkeyedUrl(c: Component, env: Env, image: string, dir: string)
    requires c.relativeCachePath == dir + "/" && |dir| > 0 && dir[|dir| - 1] != '/'
    ensures Target(c, env, image, []).relativeUrl == c.relativeCachePath + ("." + PathinfoExtension(image))
  {
    RTrimAppended(dir, '/', "/");
    assert Target(c, env, image, []) == Locate(env, image, dir, []);
    UnkeyedLayout(env, image, dir);
  }

  /** Unconfigured, that URL is `/assets/easyimage/.` followed by the extension. */
  lemma UnconfiguredUnkeyedUrl(env: Env, image: string)
    ensures Target(Unconfigured, env, image, []).relativeUrl == "/assets/easyimage/" + ("." + PathinfoExtension(image))
  {
    var dir := "/assets/easyimage";
    assert dir + "/" == DefaultRelativeCachePath;
    assert dir[|dir| - 1] == 'e';
    UnkeyedUrl(Unconfigured, env, image, dir);
  }

  /**
   * As written, an application served from the document root has a base URL that trims to
   * nothing, and with a cache path starting with `/` the absolute URL handed out starts with
   * `//`: a protocol-relative URL, whose host is the cache path's first directory.
   */
  lemma RootAppUrlIsProtocolRelative(c: Component, env: Env, image: string, options: Assoc)
    requires RTrim(env.baseUrl, '/') == ""
    requires |c.relativeCachePath| > 0 && c.relativeCachePath[0] == '/'
    ensures var t := Target(c, env, image, options);
      t.absoluteUrl == "/" + t.relativeUrl && |t.absoluteUrl| >= 2
      && t.absoluteUrl[0] == '/' && t.absoluteUrl[1] == '/'
  {
    var base := RTrim(c.relativeCachePath, '/');
    assert |base| > 0 ==> base[0] == c.relativeCachePath[0];
    assert Target(c, env, image, options) == Locate(env, image, base, options);
    LocateUrls(env, image, base, options);
    RelativeUrlRooted(base, CacheKey(env, image, options), Extension(image, options));
    JoinAfterEmpty(RTrim(env.baseUrl, '/'), Target(c, env, image, options).relativeUrl);
  }

  /** Unconfigured, in an application at the document root, the URL handed out starts with `//`. */
  lemma UnconfiguredRootAppUrl(env: Env, image: string, options: Assoc)
    requires env.baseUrl == ""
    ensures var u := Target(Unconfigured, env, image, options).absoluteUrl;
      |u| >= 2 && u[0] == '/' && u[1] == '/'
  {
    assert DefaultRelativeCachePath[0] == '/';
    RootAppUrlIsProtocolRelative(Unconfigured, env, image, options);
  }

  /**
   * With the intended join, the same application gets a root-relative URL: one `/`, then a
   * character that is not `/`.
   */
  lemma IntendedRootAppUrl(c: Component, env: Env, image: string, options: Assoc)
    requires RTrim(env.baseUrl, '/') == ""
    requires |c.relativeCachePath| > 0 && c.relativeCachePath[0] == '/'
    ensures var u := IntendedUrlJoin(env.baseUrl, Target(c, env, image, options).relativeUrl);
      |u| >= 2 && u[0] == '/' && u[1] != '/'
  {
    var base := RTrim(c.relativeCachePath, '/');
    assert Target(c, env, image, options) == Locate(env, image, base, options);
    LocateUrls(env, image, base, options);
    var rel := RelativeUrl(base, CacheKey(env, image, options), Extension(image, options));
    var e := ToPhpString(Extension(image, options));
    RelativeUrlHasDot(base, CacheKey(env, image, options), Extension(image, options));
    LTrimNotEmpty(rel, '/', |rel| - |e| - 1);
    JoinAfterEmpty(RTrim(env.baseUrl, '/'), LTrim(rel, '/'));
  }

  /**
   * As written, a call with no options for a second image is served the first image's
   * thumbnail when the two share an extension and the first was generated recently.
   */
  lemma EmptyOptionsServeAnotherImage(
    c: Component, env: Env, fs: FileSystem, engine: Engine, a: string, b: string)
    requires PathinfoExtension(a) == PathinfoExtension(b)
    requires fs.fileExists(env.webroot + b)
    requires IsFresh(fs, Target(c, env, a, []).absoluteFilePath, c.timeout)
    ensures GenerateThumbnailUrl(c, env, fs, engine, b, []) ==
      Outcome(Some(Target(c, env, a, []).absoluteUrl), None, c, None)
  {
    EmptyOptionsShareCacheFile(env, RTrim(c.relativeCachePath, '/'), a, b);
  }

  /**
   * As written, the quality reached while walking one call's options stays in the component,
   * so a later call in the same PHP request without a `quality` option saves with it instead of the configured one.
   */
  lemma QualityLeaksIntoNextCall(
    c: Component, env: Env, fs: FileSystem, engine: Engine, a: string, ma: Assoc, b: string, mb: Assoc)
    requires fs.fileExists(env.webroot + a) && !IsFresh(fs, Target(c, env, a, ma).absoluteFilePath, c.timeout)
    requires engine.load(FilePath(env, fs, a)).None?
    ensures var first := GenerateThumbnailUrl(c, env, fs, engine, a, ma);
      first.component == c.(quality := Dispatch(ma, c.quality).quality)
    ensures var first := GenerateThumbnailUrl(c, env, fs, engine, a, ma);
      var second := GenerateThumbnailUrl(first.component, env, fs, engine, b, mb);
      second.call.Some? ==> second.call.value.quality == LastQuality(Interpreted(mb), Dispatch(ma, c.quality).quality)
  {
    var first := GenerateThumbnailUrl(c, env, fs, engine, a, ma);
    var c1 := first.component;
    assert Target(c1, env, b, mb) == Target(c, env, b, mb);
    if fs.fileExists(env.webroot + b) && !IsFresh(fs, Target(c1, env, b, mb).absoluteFilePath, c1.timeout) {
      MissGeneratesOnce(c1, env, fs, engine, b, mb);
    }
  }

  /** The call that leaks: `quality` 50 for one image changes the save quality of the next. */
  lemma QualityLeakWitness(
    c: Component, env: Env, fs: FileSystem, engine: Engine, a: string, b: string, mb: Assoc)
    requires c.quality == Int(100)
    requires fs.fileExists(env.webroot + a) && !IsFresh(fs, Target(c, env, a, [("quality", Int(50))]).absoluteFilePath, c.timeout)
    requires engine.load(FilePath(env, fs, a)).None?
    ensures GenerateThumbnailUrl(c, env, fs, engine, a, [("quality", Int(50))]).component.quality == Int(50)
  {
    QualityOption(Int(50), c.quality);
    QualityLeaksIntoNextCall(c, env, fs, engine, a, [("quality", Int(50))], b, mb);
  }

  /**
   * The evidently intended behaviour: the `quality` option applies to its own thumbnail only,
   * and the component is left as configured.
   */
  function GenerateThumbnailUrlPerCall(
    c: Component, env: Env, fs: FileSystem, engine: Engine, image: string, options: Assoc)
    : (r: Outcome)
    ensures r.component == c
    ensures r.url == GenerateThumbnailUrl(c, env, fs, engine, image, options).url
    ensures r.call == GenerateThumbnailUrl(c, env, fs, engine, image, options).call
  {
    GenerateThumbnailUrl(c, env, fs, engine, image, options).(component := c)
  }

  /**
   * With the intended behaviour, a call's save quality depends only on its own options and
   * the configured quality, whatever calls came before it in the same PHP request.
   */
  lemma PerCallQualityIsIndependent(
    c: Component, env: Env, fs: FileSystem, engine: Engine, a: string, ma: Assoc, b: string, mb: Assoc)
    ensures var first := GenerateThumbnailUrlPerCall(c, env, fs, engine, a, ma);
      var second := GenerateThumbnailUrlPerCall(first.component, env, fs, engine, b, mb);
      second.call.Some? ==> second.call.value.quality == LastQuality(Interpreted(mb), c.quality)
  {
    var first := GenerateThumbnailUrlPerCall(c, env, fs, engine, a, ma);
    if fs.fileExists(env.webroot + b) && !IsFresh(fs, Target(c, env, b, mb).absoluteFilePath, c.timeout) {
      MissGeneratesOnce(c, env, fs, engine, b, mb);
    }
  }
}

=== FILE: easy_image_file.dfy ===
/**
 * EEasyImageFile as an object: the constructor's check that the source exists, and the getters
 * that memoise their result in a field and reuse it while PHP's `empty()` says the field is set.
 * The invariant `Consistent` states that every filled field holds what CacheLayout derives, so
 * each getter returns the derived value however many times it has been called before.
 */
module EasyImageFile {
  import opened Wrappers
  import opened Php
  import opened Host
  import opened CacheLayout

  /** The memo fields of the object; `None` is PHP's initial `null`. */
  datatype Memo = Memo(
    absoluteFilePath: Option<string>,
    absolutePath: Option<string>,
    absoluteUrl: Option<string>,
    cacheKey: Option<string>,
    extension: Option<Value>,
    filename: Option<string>,
    originalAbsolutePath: Option<string>,
    relativePath: Option<string>,
    relativeUrl: Option<string>)

  const Unset := Memo(None, None, None, None, None, None, None, None, None)

  datatype ImageFile = ImageFile(
    baseDirectory: string,
    metadata: Assoc,
    originalRelativePath: string,
    memo: Memo)

  /** What every getter of `f` derives. */
  function Layout(f: ImageFile, env: Env): Location {
    Locate(env, f.originalRelativePath, f.baseDirectory, f.metadata)
  }

  /** `!empty($this->field)` for a string field. */
  predicate Filled(slot: Option<string>) {
    slot.Some? && !EmptyString(slot.value)
  }

  /** Every memo field that has been set holds the value CacheLayout derives for it. */
  predicate Consistent(f: ImageFile, env: Env) {
    var loc := Layout(f, env);
    && (f.memo.absoluteFilePath.Some? ==> f.memo.absoluteFilePath.value == loc.absoluteFilePath)
    && (f.memo.absolutePath.Some? ==> f.memo.absolutePath.value == loc.absolutePath)
    && (f.memo.absoluteUrl.Some? ==> f.memo.absoluteUrl.value == loc.absoluteUrl)
    && (f.memo.cacheKey.Some? ==> loc.key.Some? && f.memo.cacheKey.value == loc.key.value)
    && (f.memo.extension.Some? ==> f.memo.extension.value == loc.extension)
    && (f.memo.filename.Some? ==> f.memo.filename.value == loc.filename)
    && (f.memo.originalAbsolutePath.Some? ==> f.memo.originalAbsolutePath.value == loc.originalAbsolutePath)
    && (f.memo.relativePath.Some? ==> f.memo.relativePath.value == loc.relativePath)
    && (f.memo.relativeUrl.Some? ==> f.memo.relativeUrl.value == loc.relativeUrl)
  }

  /** The constructor arguments are never reassigned. */
  predicate SameInputs(f: ImageFile, g: ImageFile) {
    f.baseDirectory == g.baseDirectory && f.metadata == g.metadata
    && f.originalRelativePath == g.originalRelativePath
  }

  /**
   * The constructor: the base directory loses its trailing slashes, and construction fails when
   * no file exists at the web root followed by the image path.
   */
  function New(env: Env, fs: FileSystem, image: string, baseDirectory: string, metadata: Assoc)
    : (r: Result<ImageFile, string>)
    ensures r.Success? <==> fs.fileExists(env.webroot + image)
    ensures r.Failure? ==> r.error == MissingImage(env.webroot + image)
    ensures r.Success? ==>
      && Consistent(r.value, env)
      && r.value.baseDirectory == RTrim(baseDirectory, '/')
      && r.value.metadata == metadata
      && r.value.originalRelativePath == image
  {
    var f := ImageFile(RTrim(baseDirectory, '/'), metadata, image, Unset);
    UnsetConsistent(f, env);
    var (path, f1) := GetOriginalAbsolutePath(f, env);
    if !fs.fileExists(path) then Failure(MissingImage(path)) else Success(f1)
  }

  /** The exception message for a missing source image. */
  function MissingImage(path: string): string {
    "Image does not exist at '" + path + "'"
  }

  /** A freshly constructed object has no memo field set, which is trivially consistent. */
  lemma UnsetConsistent(f: ImageFile, env: Env)
    requires f.memo == Unset
    ensures Consistent(f, env)
  {
  }

  /** `getMetadata()`. */
  function GetMetadata(f: ImageFile): Assoc {
    f.metadata
  }

  /** `getOriginalRelativePath()`. */
  function GetOriginalRelativePath(f: ImageFile): string {
    f.originalRelativePath
  }

  /** `getOriginalAbsolutePath()`. */
  function GetOriginalAbsolutePath(f: ImageFile, env: Env): (r: (string, ImageFile))
    requires Consistent(f, env)
    ensures r.0 == env.webroot + f.originalRelativePath
    ensures Consistent(r.1, env) && SameInputs(f, r.1)
    ensures r.1.memo.originalAbsolutePath == Some(r.0)
  {
    if Filled(f.memo.originalAbsolutePath) then (f.memo.originalAbsolutePath.value, f)
    else
      var v := OriginalAbsolutePath(env, GetOriginalRelativePath(f));
      (v, f.(memo := f.memo.(originalAbsolutePath := Some(v))))
  }

  /** `getCacheKey()`: when there are no options nothing is stored and PHP `null` is returned. */
  function GetCacheKey(f: ImageFile, env: Env): (r: (Option<string>, ImageFile))
    requires Consistent(f, env)
    ensures r.0 == Layout(f, env).key
    ensures Consistent(r.1, env) && SameInputs(f, r.1)
    ensures r.0.Some? ==> r.1.memo.cacheKey == r.0
  {
    if Filled(f.memo.cacheKey) then (f.memo.cacheKey, f)
    else if |f.metadata| > 0 then
      var (path, f1) := GetOriginalAbsolutePath(f, env);
      var k := env.md5(GetOriginalRelativePath(f1) + env.serialize(PlusEntry(f1.metadata, FilemtimeKey, Str(path))));
      (Some(k), f1.(memo := f1.memo.(cacheKey := Some(k))))
    else (None, f)
  }

  /** `getExtension()`. */
  function GetExtension(f: ImageFile, env: Env): (r: (Value, ImageFile))
    requires Consistent(f, env)
    ensures r.0 == Layout(f, env).extension
    ensures Consistent(r.1, env) && SameInputs(f, r.1)
    ensures r.1.memo.extension == Some(r.0)
  {
    if f.memo.extension.Some? && !IsEmpty(f.memo.extension.value) then (f.memo.extension.value, f)
    else
      var v := Extension(GetOriginalRelativePath(f), f.metadata);
      (v, f.(memo := f.memo.(extension := Some(v))))
  }

  /** `getFilename()`. */
  function GetFilename(f: ImageFile, env: Env): (r: (string, ImageFile))
    requires Consistent(f, env)
    ensures r.0 == Layout(f, env).filename
    ensures Consistent(r.1, env) && SameInputs(f, r.1)
    ensures r.1.memo.filename == Some(r.0)
  {
    if Filled(f.memo.filename) then (f.memo.filename.value, f)
    else
      var (key, f1) := GetCacheKey(f, env);
      var (extension, f2) := GetExtension(f1, env);
      var v := Filename(key, extension);
      (v, f2.(memo := f2.memo.(filename := Some(v))))
  }

  /** `getRelativePath()`. */
  function GetRelativePath(f: ImageFile, env: Env): (r: (string, ImageFile))
    requires Consistent(f, env)
    ensures r.0 == Layout(f, env).relativePath
    ensures Consistent(r.1, env) && SameInputs(f, r.1)
    ensures r.1.memo.relativePath == Some(r.0)
  {
    if Filled(f.memo.relativePath) then (f.memo.relativePath.value, f)
    else
      var (key, f1) := GetCacheKey(f, env);
      var v := RelativePath(f1.baseDirectory, key);
      (v, f1.(memo := f1.memo.(relativePath := Some(v))))
  }

  /** `getRelativeUrl()`. */
  function GetRelativeUrl(f: ImageFile, env: Env): (r: (string, ImageFile))
    requires Consistent(f, env)
    ensures r.0 == Layout(f, env).relativeUrl
    ensures Consistent(r.1, env) && SameInputs(f, r.1)
    ensures r.1.memo.relativeUrl == Some(r.0)
  {
    if Filled(f.memo.relativeUrl) then (f.memo.relativeUrl.value, f)
    else
      var (path, f1) := GetRelativePath(f, env);
      var (name, f2) := GetFilename(f1, env);
      var v := RTrim(path, '/') + "/" + name;
      (v, f2.(memo := f2.memo.(relativeUrl := Some(v))))
  }

  /** `getAbsolutePath()`. */
  function GetAbsolutePath(f: ImageFile, env: Env): (r: (string, ImageFile))
    requires Consistent(f, env)
    ensures r.0 == Layout(f, env).absolutePath
    ensures Consistent(r.1, env) && SameInputs(f, r.1)
    ensures r.1.memo.absolutePath == Some(r.0)
  {
    if Filled(f.memo.absolutePath) then (f.memo.absolutePath.value, f)
    else
      var (path, f1) := GetRelativePath(f, env);
      var v := RTrim(env.webroot, '/') + "/" + path;
      (v, f1.(memo := f1.memo.(absolutePath := Some(v))))
  }

  /** `getAbsoluteFilePath()`. */
  function GetAbsoluteFilePath(f: ImageFile, env: Env): (r: (string, ImageFile))
    requires Consistent(f, env)
    ensures r.0 == Layout(f, env).absoluteFilePath
    ensures Consistent(r.1, env) && SameInputs(f, r.1)
    ensures r.1.memo.absoluteFilePath == Some(r.0)
  {
    if Filled(f.memo.absoluteFilePath) then (f.memo.absoluteFilePath.value, f)
    else
      var (path, f1) := GetAbsolutePath(f, env);
      var (name, f2) := GetFilename(f1, env);
      var v := RTrim(path, '/') + "/" + name;
      (v, f2.(memo := f2.memo.(absoluteFilePath := Some(v))))
  }

  /** `getAbsoluteUrl()`. */
  function GetAbsoluteUrl(f: ImageFile, env: Env): (r: (string, ImageFile))
    requires Consistent(f, env)
    ensures r.0 == Layout(f, env).absoluteUrl
    ensures Consistent(r.1, env) && SameInputs(f, r.1)
    ensures r.1.memo.absoluteUrl == Some(r.0)
  {
    if Filled(f.memo.absoluteUrl) then (f.memo.absoluteUrl.value, f)
    else
      var (url, f1) := GetRelativeUrl(f, env);
      var v := RTrim(env.baseUrl, '/') + "/" + url;
      (v, f1.(memo := f1.memo.(absoluteUrl := Some(v))))
  }

  /** A value that contains a given character is never PHP-empty as a string. */
  lemma NotEmptyWith(s: string, i: nat, c: char)
    requires i < |s| && s[i] == c && c != '0'
    ensures !EmptyString(s)
  {
  }

  /** Every string a getter derives, except the key and the original path, is non-empty and not "0". */
  lemma DerivedNotEmpty(f: ImageFile, env: Env)
    ensures var loc := Layout(f, env);
      && !EmptyString(loc.filename) && !EmptyString(loc.relativePath) && !EmptyString(loc.relativeUrl)
      && !EmptyString(loc.absolutePath) && !EmptyString(loc.absoluteFilePath) && !EmptyString(loc.absoluteUrl)
  {
    var loc := Layout(f, env);
    var fn := loc.filename;
    assert fn[|KeyText(loc.key)|] == '.';
    NotEmptyWith(fn, |KeyText(loc.key)|, '.');
    NotEmptyWith(loc.relativePath, |f.baseDirectory|, '/');
    var rp := RTrim(loc.relativePath, '/');
    NotEmptyWith(loc.relativeUrl, |rp|, '/');
    NotEmptyWith(loc.absolutePath, |RTrim(env.webroot, '/')|, '/');
    NotEmptyWith(loc.absoluteFilePath, |RTrim(loc.absolutePath, '/')|, '/');
    NotEmptyWith(loc.absoluteUrl, |RTrim(env.baseUrl, '/')|, '/');
  }

  /**
   * Calling a memoised path getter a second time returns the first call's value and leaves the
   * object as the first call left it.
   */
  lemma PathGettersIdempotent(f: ImageFile, env: Env)
    requires Consistent(f, env)
    ensures var (v1, f1) := GetAbsoluteUrl(f, env); GetAbsoluteUrl(f1, env) == (v1, f1)
    ensures var (v1, f1) := GetAbsoluteFilePath(f, env); GetAbsoluteFilePath(f1, env) == (v1, f1)
    ensures var (v1, f1) := GetAbsolutePath(f, env); GetAbsolutePath(f1, env) == (v1, f1)
  {
    DerivedNotEmpty(f, env);
  }

  /** The same for the getters of the relative location. */
  lemma RelativeGettersIdempotent(f: ImageFile, env: Env)
    requires Consistent(f, env)
    ensures var (v1, f1) := GetRelativeUrl(f, env); GetRelativeUrl(f1, env) == (v1, f1)
    ensures var (v1, f1) := GetRelativePath(f, env); GetRelativePath(f1, env) == (v1, f1)
    ensures var (v1, f1) := GetFilename(f, env); GetFilename(f1, env) == (v1, f1)
  {
    DerivedNotEmpty(f, env);
  }

  /**
   * The key, the extension and the original path are recomputed when PHP deems the stored value
   * empty, but a second call still answers what the first did.
   */
  lemma KeyGettersIdempotent(f: ImageFile, env: Env)
    requires Consistent(f, env)
    ensures var (v1, f1) := GetCacheKey(f, env); GetCacheKey(f1, env).0 == v1
    ensures var (v1, f1) := GetOriginalAbsolutePath(f, env); GetOriginalAbsolutePath(f1, env).0 == v1
    ensures var (v1, f1) := GetExtension(f, env); GetExtension(f1, env).0 == v1
  {
  }

  /**
   * The file's modification time plays no part: two filesystems that both hold the source yield
   * the same object, hence the same key, even if the source was rewritten in between.
   */
  lemma KeyIgnoresModificationTime(
    env: Env, fs1: FileSystem, fs2: FileSystem, image: string, baseDirectory: string, metadata: Assoc)
    requires fs1.fileExists(env.webroot + image) && fs2.fileExists(env.webroot + image)
    ensures New(env, fs1, image, baseDirectory, metadata) == New(env, fs2, image, baseDirectory, metadata)
  {
  }

  /** `getMetadata()` hands back the options exactly as the constructor received them. */
  lemma MetadataAsGiven(env: Env, fs: FileSystem, image: string, baseDirectory: string, metadata: Assoc)
    requires fs.fileExists(env.webroot + image)
    ensures GetMetadata(New(env, fs, image, baseDirectory, metadata).value) == metadata
  {
  }
}

=== FILE: host.dfy ===
/**
 * What the thumbnail core receives from outside: the Yii application's web root and base URL,
 * the MD5 digest and PHP `serialize` (kept uninterpreted), and the filesystem and clock.
 */
module Host {
  import opened Php

  predicate IsLowerHex(c: char) {
    '0' <= c <= '9' || 'a' <= c <= 'f'
  }

  /** PHP `md5()` returns the 128-bit digest of RFC 1321 as 32 lower-case hexadecimal characters. */
  predicate IsHexDigest(s: string) {
    |s| == 32 && forall i | 0 <= i < |s| :: IsLowerHex(s[i])
  }

  type Digest = s: string | IsHexDigest(s) witness "00000000000000000000000000000000"

  /**
   * The application environment: `Yii::getPathOfAlias('webroot')`, `Yii::app()->getBaseUrl()`,
   * and the two library functions the cache key is built from. Only their types are assumed.
   */
  datatype Env = Env(
    webroot: string,
    baseUrl: string,
    md5: string -> Digest,
    serialize: Assoc -> string)

  /**
   * The filesystem and clock as one request sees them: `file_exists`, `is_file`,
   * `filemtime` and `time()`.
   */
  datatype FileSystem = FileSystem(
    fileExists: string -> bool,
    isFile: string -> bool,
    mtime: string -> int,
    now: int)
}

=== FILE: php.dfy ===
/**
 * The slice of PHP's value model and string library that the thumbnail core relies on:
 * loosely-typed values, ordered string-keyed arrays, `isset`, the array union `+`,
 * `empty`, string conversion, `rtrim`, `strtolower`, `basename` and `pathinfo`.
 */
module Php {
  import opened Wrappers

  /** A PHP value as it can appear in an options array (floats and objects are not modelled). */
  datatype Value =
    | Null
    | Bool(b: bool)
    | Int(i: int)
    | Str(s: string)
    | Arr(entries: Assoc)

  /**
   * An ordered PHP array with string keys, in insertion order. A PHP array holds each key at
   * most once (`UniqueKeys`); the sequence type does not enforce it, so `Lookup` reads the first
   * entry of a key, which is the only one whenever the array came from PHP.
   */
  type Assoc = seq<(string, Value)>

  predicate UniqueKeys(a: Assoc) {
    forall i, j | 0 <= i < j < |a| :: a[i].0 != a[j].0
  }

  function Keys(a: Assoc): set<string> {
    set i | 0 <= i < |a| :: a[i].0
  }

  lemma KeysOfTail(a: Assoc)
    requires |a| > 0
    ensures Keys(a) == {a[0].0} + Keys(a[1..])
  {
    forall k | k in Keys(a) ensures k in {a[0].0} + Keys(a[1..]) {
      var i :| 0 <= i < |a| && a[i].0 == k;
      if i > 0 {
        assert a[1..][i - 1].0 == k;
      }
    }
    forall k | k in Keys(a[1..]) ensures k in Keys(a) {
      var i :| 0 <= i < |a[1..]| && a[1..][i].0 == k;
      assert a[i + 1].0 == k;
    }
  }

  /** `$a[k]`: the value stored under `k`, if the key is present. */
  function Lookup(a: Assoc, k: string): (r: Option<Value>)
    ensures r.Some? <==> k in Keys(a)
    ensures r.Some? ==> (k, r.value) in a
  {
    if |a| == 0 then None
    else
      KeysOfTail(a);
      if a[0].0 == k then Some(a[0].1) else Lookup(a[1..], k)
  }

  /** Looking up in a concatenation looks in the left array first. */
  lemma {:induction false} LookupAppend(a: Assoc, b: Assoc, k: string)
    ensures Lookup(a + b, k) == if k in Keys(a) then Lookup(a, k) else Lookup(b, k)
    decreases |a|
  {
    if |a| == 0 {
      assert a + b == b;
    } else {
      KeysOfTail(a);
      assert (a + b)[0] == a[0];
      assert (a + b)[1..] == a[1..] + b;
      if a[0].0 != k {
        LookupAppend(a[1..], b, k);
      }
    }
  }

  /** `isset($a[k]) ? $a[k] : null` as an option: present only when the key exists with a non-null value. */
  function IssetKey(a: Assoc, k: string): (r: Option<Value>)
    ensures r.Some? <==> Lookup(a, k).Some? && Lookup(a, k).value != Null
    ensures r.Some? ==> r == Lookup(a, k)
  {
    match Lookup(a, k)
    case Some(v) => if v == Null then None else Some(v)
    case None => None
  }

  /**
   * `$v[k]` when `isset($v[k])` holds. For a value that is not an array the answer is always
   * "not set": from PHP 5.4 on, `isset` of a non-numeric offset of a string, and of any offset
   * of a scalar or null, is false.
   */
  function Field(v: Value, k: string): (r: Option<Value>)
    ensures r.Some? ==> v.Arr? && r.value != Null && Lookup(v.entries, k) == r
    ensures v.Arr? && Lookup(v.entries, k).Some? && Lookup(v.entries, k).value != Null ==> r.Some?
  {
    if v.Arr? then IssetKey(v.entries, k) else None
  }

  /** `isset($v[k]) ? $v[k] : default`. */
  function FieldOr(v: Value, k: string, default: Value): Value {
    match Field(v, k)
    case Some(x) => x
    case None => default
  }

  /**
   * The array union `$a + array(k => v)`: the left operand wins, so the entry is appended
   * only when `k` is not already a key of `a`.
   */
  function PlusEntry(a: Assoc, k: string, v: Value): (r: Assoc)
    ensures a <= r
    ensures Keys(r) == Keys(a) + {k}
    ensures Lookup(r, k) == if k in Keys(a) then Lookup(a, k) else Some(v)
    ensures forall j :: j != k ==> Lookup(r, j) == Lookup(a, j)
    ensures UniqueKeys(a) ==> UniqueKeys(r)
  {
    if k in Keys(a) then a
    else
      var r := a + [(k, v)];
      assert Keys(r) == Keys(a) + {k} by {
        assert r[|a|].0 == k;
        forall j | j in Keys(r) ensures j in Keys(a) + {k} {
          var i :| 0 <= i < |r| && r[i].0 == j;
          if i < |a| {
            assert a[i].0 == j;
          }
        }
        forall j | j in Keys(a) ensures j in Keys(r) {
          var i :| 0 <= i < |a| && a[i].0 == j;
          assert r[i].0 == j;
        }
      }
      assert Keys([(k, v)]) == {k} by {
        assert [(k, v)][0].0 == k;
      }
      forall j ensures Lookup(r, j) == if j in Keys(a) then Lookup(a, j) else Lookup([(k, v)], j) {
        LookupAppend(a, [(k, v)], j);
      }
      assert forall i | 0 <= i < |a| :: r[i] == a[i] && a[i].0 in Keys(a);
      r
  }

  /**
   * PHP `empty()` of a string: the empty string and `"0"`. Every string of two or more
   * characters is non-empty, even `"00"` or `" "`.
   */
  predicate EmptyString(s: string)
    ensures EmptyString(s) ==> |s| <= 1
    ensures |s| == 0 ==> EmptyString(s)
    ensures |s| == 1 ==> (EmptyString(s) <==> s[0] == '0')
  {
    s == "" || s == "0"
  }

  /** PHP `empty()`: null, false, 0, the empty string, `"0"` and the empty array. */
  predicate IsEmpty(v: Value)
    ensures IsEmpty(v) <==>
      v in {Null, Bool(false), Int(0), Str(""), Str("0"), Arr([])}
  {
    match v
    case Null => true
    case Bool(b) => !b
    case Int(i) => i == 0
    case Str(s) => EmptyString(s)
    case Arr(e) => |e| == 0
  }

  function DigitChar(d: int): char
    requires 0 <= d < 10
  {
    ('0' as int + d) as char
  }

  /** Decimal digits of a natural number, most significant first. */
  function NatString(n: nat): (r: string)
    ensures |r| > 0
    ensures forall i | 0 <= i < |r| :: '0' <= r[i] <= '9'
    decreases n
  {
    if n < 10 then [DigitChar(n)] else NatString(n / 10) + [DigitChar(n % 10)]
  }

  function IntString(i: int): string {
    if i < 0 then "-" + NatString(-i) else NatString(i)
  }

  /** The decimal form of an integer is `"0"` only for zero, and never empty. */
  lemma IntStringZero(i: int)
    ensures IntString(i) != ""
    ensures IntString(i) == "0" <==> i == 0
  {
    if i < 0 {
      assert IntString(i)[0] == '-';
    } else if i >= 10 {
      assert |NatString(i / 10)| > 0;
    }
  }

  /**
   * PHP's conversion of a value to string, as done by the `.` operator and `sprintf('%s')`.
   * A string is kept, an array becomes `"Array"`, and for every other value the string is
   * empty in the sense of `empty()` exactly when the value is.
   */
  function ToPhpString(v: Value): (r: string)
    ensures v.Str? ==> r == v.s
    ensures v.Arr? ==> r == "Array"
    ensures !v.Arr? ==> (EmptyString(r) <==> IsEmpty(v))
  {
    match v
    case Null => ""
    case Bool(b) => if b then "1" else ""
    case Int(i) => IntStringZero(i); IntString(i)
    case Str(s) => s
    case Arr(_) => "Array"
  }

  /** `rtrim($s, c)`: removes every trailing occurrence of `c`. */
  function RTrim(s: string, c: char): (r: string)
    ensures r <= s
    ensures |r| == 0 || r[|r| - 1] != c
    ensures forall i | |r| <= i < |s| :: s[i] == c
    decreases |s|
  {
    if |s| > 0 && s[|s| - 1] == c then RTrim(s[..|s| - 1], c) else s
  }

  /** The properties above determine `rtrim` completely: any prefix that has them is the result. */
  lemma {:induction false} RTrimUnique(s: string, c: char, p: string)
    requires p <= s
    requires |p| == 0 || p[|p| - 1] != c
    requires forall i | |p| <= i < |s| :: s[i] == c
    ensures RTrim(s, c) == p
  {
  }

  /** `rtrim` is idempotent. */
  lemma RTrimIdempotent(s: string, c: char)
    ensures RTrim(RTrim(s, c), c) == RTrim(s, c)
  {
    RTrimUnique(RTrim(s, c), c, RTrim(s, c));
  }

  /** Appending `c`s to a string that has no trailing `c` is undone by `rtrim`. */
  lemma RTrimAppended(p: string, c: char, tail: string)
    requires |p| == 0 || p[|p| - 1] != c
    requires forall i | 0 <= i < |tail| :: tail[i] == c
    ensures RTrim(p + tail, c) == p
  {
    var s := p + tail;
    forall i | |p| <= i < |s| ensures s[i] == c {
      assert s[i] == tail[i - |p|];
    }
    RTrimUnique(s, c, p);
  }

  /** `ltrim($s, c)`: removes every leading occurrence of `c`. */
  function LTrim(s: string, c: char): (r: string)
    ensures |r| <= |s| && r == s[|s| - |r|..]
    ensures |r| == 0 || r[0] != c
    ensures forall i | 0 <= i < |s| - |r| :: s[i] == c
    decreases |s|
  {
    if |s| > 0 && s[0] == c then LTrim(s[1..], c) else s
  }

  /** A string holding a character other than `c` keeps it through `ltrim`. */
  lemma LTrimNotEmpty(s: string, c: char, k: nat)
    requires k < |s| && s[k] != c
    ensures |LTrim(s, c)| > 0
  {
  }

  function LowerChar(ch: char): char {
    if 'A' <= ch <= 'Z' then (ch as int + 32) as char else ch
  }

  /** `strtolower` on ASCII letters; every other character is left alone. */
  function ToLower(s: string): (r: string)
    ensures |r| == |s|
    ensures forall i | 0 <= i < |s| :: r[i] == LowerChar(s[i])
  {
    if |s| == 0 then "" else [LowerChar(s[0])] + ToLower(s[1..])
  }

  lemma ToLowerIdempotent(s: string)
    ensures ToLower(ToLower(s)) == ToLower(s)
  {
    var t := ToLower(s);
    assert forall i | 0 <= i < |t| :: ToLower(t)[i] == t[i];
  }

  /** A string without upper-case ASCII letters is its own lower-case form. */
  lemma ToLowerNoUpper(s: string)
    requires forall i | 0 <= i < |s| :: !('A' <= s[i] <= 'Z')
    ensures ToLower(s) == s
  {
    assert forall i | 0 <= i < |s| :: ToLower(s)[i] == s[i];
  }

  /** The text after the last `c` in `s`, or all of `s` when `c` does not occur. */
  function AfterLast(s: string, c: char): (r: string)
    ensures c !in r
    ensures |r| <= |s| && r == s[|s| - |r|..]
    ensures |r| < |s| ==> s[|s| - |r| - 1] == c
    decreases |s|
  {
    if |s| == 0 then ""
    else if s[|s| - 1] == c then ""
    else
      var r := AfterLast(s[..|s| - 1], c) + [s[|s| - 1]];
      assert r == s[|s| - |r|..];
      r
  }

  predicate EndsWith(s: string, t: string) {
    |t| <= |s| && s[|s| - |t|..] == t
  }

  lemma EndsWithConcat(a: string, t: string)
    ensures EndsWith(a + t, t)
  {
    assert (a + t)[|a|..] == t;
  }

  /** A `rtrim($a, '/') . '/' . $b` join ends with `'/' . $b`. */
  lemma JoinEndsWith(a: string, b: string)
    ensures EndsWith(RTrim(a, '/') + "/" + b, "/" + b)
  {
    EndsWithConcat(RTrim(a, '/'), "/" + b);
    assert RTrim(a, '/') + "/" + b == RTrim(a, '/') + ("/" + b);
  }

  /** A `t . '/' . $x` join whose first part is empty is `'/' . $x`. */
  lemma JoinAfterEmpty(t: string, x: string)
    requires t == ""
    ensures t + "/" + x == "/" + x
  {
  }

  /**
   * `basename($p)`: trailing slashes are dropped, then the last path component is kept, that
   * is the suffix without `/` that is either the whole trimmed path or preceded by a `/`.
   */
  function Basename(p: string): (r: string)
    ensures '/' !in r
    ensures EndsWith(RTrim(p, '/'), r)
    ensures |r| < |RTrim(p, '/')| ==> RTrim(p, '/')[|RTrim(p, '/')| - |r| - 1] == '/'
  {
    AfterLast(RTrim(p, '/'), '/')
  }

  /** A character absent from a string is absent from each of its suffixes. */
  lemma NotInSuffix(s: string, k: nat, c: char)
    requires k <= |s| && c !in s
    ensures c !in s[k..]
  {
  }

  /** A suffix preceded by `c` makes `[c] + suffix` a suffix too. */
  lemma SuffixAfterChar(b: string, r: string, c: char)
    requires |r| < |b| && r == b[|b| - |r|..] && b[|b| - |r| - 1] == c
    ensures EndsWith(b, [c] + r)
  {
    assert b[|b| - |r| - 1..] == [b[|b| - |r| - 1]] + b[|b| - |r|..];
  }

  /** When `c` precedes both a shorter and a longer suffix, the longer one holds that `c`. */
  lemma CharBeforeSuffix(s: string, c: char, x: string, y: string)
    requires EndsWith(s, [c] + x) && EndsWith(s, [c] + y) && |x| < |y|
    ensures y[|y| - |x| - 1] == c
  {
    assert s[|s| - |x| - 1] == c;
    assert y[|y| - |x| - 1] == s[|s| - |x| - 1];
  }

  /** Two suffixes free of `c` that each follow a `c` at the end of `s` are the same suffix. */
  lemma LastSegmentUnique(s: string, c: char, x: string, y: string)
    requires c !in x && c !in y
    requires EndsWith(s, [c] + x) && EndsWith(s, [c] + y)
    ensures x == y
  {
    if |x| < |y| {
      CharBeforeSuffix(s, c, x, y);
      assert false;
    } else if |y| < |x| {
      CharBeforeSuffix(s, c, y, x);
      assert false;
    }
    assert x == s[|s| - |x|..] == y;
  }

  /**
   * `pathinfo($p, PATHINFO_EXTENSION)`: when the basename holds a `.`, the text after its last
   * `.`; otherwise "".
   */
  function PathinfoExtension(p: string): (r: string)
    ensures '.' !in r && '/' !in r
    ensures '.' in Basename(p) ==> EndsWith(Basename(p), "." + r)
    ensures '.' !in Basename(p) ==> r == ""
  {
    var b := Basename(p);
    if '.' in b then
      var r := AfterLast(b, '.');
      NotInSuffix(b, |b| - |r|, '/');
      AfterLastShorter(b, '.');
      SuffixAfterChar(b, r, '.');
      r
    else ""
  }

  /** A string holding `c` is longer than the text after its last `c`. */
  lemma AfterLastShorter(s: string, c: char)
    requires c in s
    ensures |AfterLast(s, c)| < |s|
  {
  }

  /** The extension is the only `.`-free text that follows a `.` at the end of the basename. */
  lemma PathinfoExtensionUnique(p: string, e: string)
    requires '.' !in e && EndsWith(Basename(p), "." + e)
    ensures PathinfoExtension(p) == e
  {
    var b := Basename(p);
    assert b[|b| - |e| - 1] == '.';
    LastSegmentUnique(b, '.', PathinfoExtension(p), e);
  }
}

=== FILE: wrappers.dfy ===
/** Failure-compatible wrappers used throughout the model. */
module Wrappers {

  /** A value that may be absent; PHP's `null` return where the source has one. */
  datatype Option<+T> = None | Some(value: T)

  /** The outcome of an operation that can raise: a value, or the exception's error. */
  datatype Result<+T, +E> = Success(value: T) | Failure(error: E) {

    predicate IsFailure() {
      Failure?
    }

    function PropagateFailure<U>(): Result<U, E>
      requires Failure?
    {
      Failure(error)
    }

    function Extract(): T
      requires Success?
    {
      value
    }
  }
}
